=== FILE: README.md ===
# TSGame-Framework sprite layer in Dafny

A model of the sprite layer of TSGame-Framework, a small canvas game framework. It covers:

- **Sprites.** Geometry, the frame clock with its zero sentinel ("a coordinate of exactly 0
  means keep the current one"), pointer containment and the source/destination rectangles of
  a blit.
- **Cells.** A background sprite plus an optional foreground sprite at an offset. The model
  includes the four adjacency checks and inclusive containment.
- **Draggable entities ("Movable").** The process-wide registry, a dense layering rank
  (`z_index`), a top-most hit-test over active entries, and the drag step: select, promote to
  the top, centre and clamp into the surface. Release and batch reset are also modelled.
- **Compositor ("Affichage").** A clear, then the non-draggable entities in list order, then
  the draggable ones in ascending rank.
- **Engine.** The live object list (add, remove by identity, clear) and one turn of the
  animation loop: update every object with (0, 0), then paint.
- **Click dispatcher ("ListenerManager").** The three-phase click resolution and the
  double-click recogniser. The recogniser is an explicit state machine; its timer is a deadline
  compared with the time of each event.
- **Util.** Pointer-event normalisation and the game-mode switch.
- **Structure.** The grid builder, which lays cells out column by column and appends each one
  to the engine list.

The state of the layer is one immutable `Scenes.Scene` record:

- every entity, keyed by identity;
- the registry of draggable entities, in construction order;
- the engine's object list;
- the next free identity.

A class test in the source (`instanceof Movable`, `instanceof Cell`) becomes a tag on the
entity (`Kind = Plain | Movable | Cell`). A click can land on a whole entity or on the
foreground sprite a cell owns (`Target = Whole(id) | Foreground(owner)`).

The invariant `Scenes.Valid` holds that:

- the registry lists exactly the draggable entities, once each;
- their ranks form a permutation of [0, N);
- at most one of them is selected;
- the engine list names only existing entities.

Construction, drag, release, reset, the update pass, additions, removals and the grid builder
are each proved to preserve it.

Where the behaviour described for the system and its code differ, the model follows the code:

- Removing an object that is not in the engine list removes the last object. This is not a
  no-op: the list splices at `indexOf`, which is -1 (`Engine.RemoveOne`).
- A first click cancels any pending double-click timer even when it resolves nothing
  (`ListenerManager.FirstClick`).
- The second-click handler does not cancel the timer. That timer later fires while the
  first-click handler is bound, which changes nothing (`ListenerManager.StaleTimerHarmless`).
- The drag step ignores a touch move whose point lies off the surface. Edges count as on the
  surface.

Modules: `Options` and `Seqs` (shared helpers), `Canvas`, `Sprites`, `Cells`, `Ranks`,
`Scenes`, `Util`, `Movables`, `Affichage`, `Engine`, `ListenerManager`, `Structure`.

## Model

| member | source | states |
|---|---|---|
| Seqs.IndexOf | Engine.ts:83 | -1 exactly when the element is absent; otherwise the index of its first occurrence |
| Sprites.New | proto/Sprite.ts:53-68 | size is the image size times the scale; end bounds are position plus size; the frame and tick counters start at 0; there is no action |
| Sprites.WithAction | proto/Sprite.ts:155 | sets the double-click action and nothing else |
| Sprites.Update | proto/Sprite.ts:96-111 | a non-zero coordinate replaces the position and a zero one keeps it; bounds are recomputed; the tick counter advances and, for multi-frame images, wraps at `speed` while the frame advances modulo the frame count; a frame in range stays in range; nothing else changes |
| Sprites.FrameFrozenPastSpeed | proto/Sprite.ts:101-110 | once the tick counter is at or past `speed`, any number of (0, 0) updates leaves the frame and the position alone and only grows the counter |
| Sprites.FrameAdvancesOncePerPeriod | proto/Sprite.ts:101-110 | below `speed`, the frame holds for `speed - tick - 1` updates and advances by one, modulo the frame count, on the next, resetting the counter |
| Sprites.HalfOpenEdges | proto/Sprite.ts:120-123 | containment is half-open: the offset top-left corner is inside, the right and bottom edges are outside |
| Sprites.Draw | proto/Sprite.ts:74-88 | no blit exactly when the image is not loaded; otherwise the destination is the sprite's rectangle and the source row is 0 |
| Sprites.DrawSelectsCurrentFrame | proto/Sprite.ts:76-81 | for a sprite sized from its image, the source rectangle is exactly the current frame: frame index times the frame width, one frame wide and high |
| Cells.New | proto/Cell.ts:44-46 | a cell is a speed-0 background sprite with no foreground and every flag false |
| Cells.BackgroundNeverAnimates | proto/Cell.ts:44-46 | a fresh cell's background stays on frame 0 whatever the number of updates |
| Cells.Update | proto/Cell.ts:55-59 | the background gets the sentinel update; the foreground, if any, is updated at the cell's new position plus the offset; without a foreground nothing else changes |
| Cells.ForegroundFollowsOwner | proto/Cell.ts:55-59 | after an update the foreground sits at the cell's position plus the offset on each axis, unless that sum is 0, in which case it keeps its place |
| Cells.SetSprite | proto/Cell.ts:159-165 | installs the foreground and marks the cell drawn; on each axis a non-zero offset is kept verbatim and a missing or zero one becomes the centring offset from the foreground image size times its scale; nothing else changes |
| Cells.DefaultOffsetCentres | proto/Cell.ts:160-161 | on each axis independently, a missing or zero offset centres the foreground on the cell |
| Cells.SetOffset | proto/Cell.ts:172-176 | sets both offsets and nothing else |
| Cells.InsideIsPreorder | proto/Cell.ts:76-78 | containment is reflexive and transitive |
| Cells.InsideSpritePointsAreInCell | proto/Cell.ts:76-78 | every point of a contained sprite is a point of the cell |
| Cells.AnyIsSomeSide | proto/Cell.ts:88-111 | "any" is the disjunction of the four sides; an unknown direction is never adjacent |
| Cells.NextToConverse | proto/Cell.ts:119-151 | right of B is B left of A, top of B is B below A, and "any" is symmetric |
| Cells.NeverNextToItself | proto/Cell.ts:119-151 | a cell of positive size is adjacent to itself in no direction |
| Cells.SideBySideCellsDisjoint | proto/Cell.ts:119-121 | two cells side by side share no point |
| Cells.StackedCellsDisjoint | proto/Cell.ts:149-151 | two stacked cells share no point |
| Ranks.PromoteKeepsPermutation | proto/Movable.ts:103-104 | promoting an entry keeps the ranks a permutation of [0, N) |
| Ranks.PromotedIsTop | proto/Movable.ts:103-104 | the promoted entry ends strictly above every other |
| Ranks.PromoteKeepsRelativeOrder | proto/Movable.ts:103 | exactly the entries above the promoted one drop by one; all other pairs keep their order |
| Ranks.AppendKeepsPermutation | proto/Movable.ts:43-46 | registering a new entry with rank N extends the permutation |
| Ranks.PromoteScenario | proto/Movable.ts:103-104 | promoting the rank-0 entry of ranks [0, 1, 2] yields [2, 0, 1] |
| Ranks.PermutationIsDense | proto/Movable.ts:103-104 | a permutation of [0, N) has no gaps: every rank below N is held |
| Scenes.Empty | proto/Movable.ts:10 | the empty scene satisfies the invariant |
| Scenes.UpdateEntity | proto/Cell.ts:55-59 | updating an entity is the sprite update, plus the foreground update for a cell; every other class keeps its tag and fields |
| Scenes.Spawn | proto/Sprite.ts:53-68 | a non-draggable entity receives the next identity and changes nothing else |
| Scenes.SpawnKeepsValid | proto/Sprite.ts:53-68 | that identity was free, and the invariant is kept |
| Util.Globalize | Util.ts:157-174 | the first touch, else the raw event, supplies both coordinates; if either of them is undefined or 0 and a wrapped native event exists, both come from the wrapped event; otherwise both are kept; the pointer is pressed exactly for touch starts, touch moves and primary-button-only mouse events |
| Util.ZeroTouchFallsBack | Util.ts:158-167 | a touch at 0 on either axis is replaced, on both axes, by the wrapped event's coordinates |
| Util.FalsyOnlyFromSource | Util.ts:157-167 | normalisation never loses a usable coordinate: a result coordinate is undefined or 0 only if the source it was last taken from had it so |
| Util.TruthyMouseKept | Util.ts:162-167 | a mouse event with non-zero coordinates keeps exactly those coordinates |
| Util.Init | Util.ts:24-26 | the game starts in exploration mode without a callback |
| Util.CallOnGamemodeChange | Util.ts:181-183 | registers the callback and keeps the mode |
| Util.OnGameDataChanged | Util.ts:185-192 | training records exactly statistics mode 1 and evaluating exactly mode 2, first; other modes record none; the callback fires, last, exactly when registered; nothing else happens |
| Util.SelectGamemode | Util.ts:27-50 | a mode button sets the mode; switching fires one game-data change; re-selecting the current mode does nothing |
| Util.SwitchRecordsStats | Util.ts:27-50 | switching into training or evaluation yields exactly one statistic of that mode then the callback if registered; switching into another mode yields only the callback |
| Util.SelectTwiceIsOnce | Util.ts:27-50 | pressing the same mode button twice has no further effect |
| Movables.NewMovable | proto/Movable.ts:39-47 | the new entity is appended to the registry with rank N, unselected, remembering its initial position, and is not put in the engine list |
| Movables.NewMovableKeepsValid | proto/Movable.ts:43-46 | the ranks grow by exactly N and the invariant is kept |
| Movables.TopIn | proto/Movable.ts:132-146 | the hit-test returns an active draggable entity containing the point, of maximal rank, the earliest among equal ranks; it returns nothing exactly when nothing is hit |
| Movables.TopMostIsStrictlyHighest | proto/Movable.ts:132-146 | under the invariant the top-most hit is strictly above every other hit |
| Movables.FirstSelected | proto/Movable.ts:93-99 | the selected registry entry at the lowest index; none exactly when nothing is selected |
| Movables.FirstSelectedIsLowest | proto/Movable.ts:93-99 | the selected entry with no selected entry before it in the registry is the one chosen |
| Movables.DragTarget | proto/Movable.ts:93-100 | the drag target is the selected entity if any, else the top-most hit |
| Movables.Clamp | proto/Movable.ts:107-118 | a position that fits is kept; a negative one becomes 1 when 1 fits; one that overflows after that step becomes `limit - extent`; when the extent fits, the result lies in [0, limit - extent] |
| Movables.Grab | proto/Movable.ts:102-104 | a grab changes only ranks and selection: the grabbed entity is selected at rank N - 1; other draggable entities keep their selection; every draggable entity keeps its active flag and initial position; every other entity and every sprite, list and identity is unchanged |
| Movables.GrabPromotes | proto/Movable.ts:102-104 | the ranks after a grab are the promotion of the grabbed entry; selected afterwards means grabbed or selected before |
| Movables.GrabKeepsValid | proto/Movable.ts:102-104 | grabbing the only selected entity, or with none selected, keeps the invariant |
| Movables.MoveTo | proto/Movable.ts:105-119 | the target is updated at the pointer, centred and clamped per axis; nothing else changes |
| Movables.MoveToKeepsValid | proto/Movable.ts:105-119 | moving keeps the invariant |
| Movables.OnPointerMove | proto/Movable.ts:88-123 | an unpressed pointer, a touch off the surface or no drag target leave the scene unchanged; the registry, list and identities never change |
| Movables.DragKeepsValid | proto/Movable.ts:88-123 | every pointer move keeps ranks a permutation and at most one entity selected |
| Movables.DragLeavesOthersAlone | proto/Movable.ts:88-123 | a pointer move leaves every entity but the dragged one unchanged, except for the rank of a registered draggable entity |
| Movables.DragPromotesTarget | proto/Movable.ts:101-104 | the dragged entity is selected and ranks N - 1; entries above its old rank drop by one; the others keep theirs |
| Movables.DragClampsIntoSurface | proto/Movable.ts:105-119 | on each axis the dragged entity lands centred under the pointer and clamped; a clamped coordinate of 0 keeps the old one; an entity that fits stays inside the surface on that axis |
| Movables.Release | proto/Movable.ts:76-78 | every registered draggable entity becomes unselected with all its other fields kept; every other entity, list and identity is unchanged |
| Movables.ReleaseIdempotent | proto/Movable.ts:76-78 | releasing twice is releasing once |
| Movables.ReleaseKeepsValid | proto/Movable.ts:76-78 | release keeps the invariant and leaves nothing selected |
| Movables.ResetEachUpdatesOnce | proto/Movable.ts:64-68 | each listed draggable entity gets exactly one update with its initial position; the others are untouched |
| Movables.ResetPositions | proto/Movable.ts:64-68 | a reset leaves the registry, list and identities alone |
| Movables.ResetRestoresInitial | proto/Movable.ts:64-68 | after a reset each registered entity is at its initial position on every axis whose initial coordinate is non-zero; ranks, selection and the invariant are kept |
| Affichage.ClearAll | Affichage.ts:47-49 | clearing covers the whole surface |
| Affichage.Insert | Affichage.ts:68 | inserting into a rank-sorted list keeps it sorted and adds exactly that element |
| Affichage.SortByRank | Affichage.ts:68 | the draggable subset is sorted by ascending rank, as a permutation of its input |
| Affichage.PaintOrderSpec | Affichage.ts:58-69 | the paint order is the non-draggable entities in list order, then every draggable one in ascending rank; each object is painted exactly as often as it is listed |
| Affichage.PaintOrderPartition | Affichage.ts:58-69 | the first part is exactly the non-draggable subsequence; everything after it is draggable |
| Affichage.PaintOrderPermutes | Affichage.ts:60-69 | the paint order is a permutation of the list |
| Affichage.PartitionKeepsAll | Affichage.ts:60-66 | the two subsets together hold every listed object exactly as often as the list does |
| Affichage.NonMovablesPaintFirst | Affichage.ts:67-69 | every non-draggable entity is painted before every draggable one |
| Affichage.MovablesPaintStrictlyAscending | Affichage.ts:68-69 | under the invariant, with no object listed twice, draggable entities paint in strictly ascending rank |
| Affichage.DistinctRanks | proto/Movable.ts:103-104 | under the invariant two draggable entities never share a rank |
| Affichage.PaintSprite | proto/Sprite.ts:74-88 | a sprite paints one blit exactly when its image is loaded |
| Affichage.PaintEntity | proto/Cell.ts:65-68 | an entity paints only itself plus a cell's foreground: a non-cell paints its own sprite, a cell paints its background then its foreground if it has one, a missing entity paints nothing |
| Affichage.PaintAll | Affichage.ts:67-69 | every operation is a paint of one of the given entities or their foregrounds |
| Affichage.Render | Affichage.ts:56-70 | a frame starts with a full clear and paints only listed entities and their foregrounds afterwards |
| Affichage.PaintAllOnePerEntity | Affichage.ts:67-69 | without cells and with loaded images, exactly one blit per entity is painted, in order |
| Affichage.RenderFollowsPaintOrder | Affichage.ts:56-70 | without cells and with loaded images, the painted targets after the clear are exactly the paint order |
| Affichage.PaintAllTargets | proto/Cell.ts:65-68 | with every image loaded, painting a list shows each entity in order, a cell's foreground right after its background |
| Affichage.RenderShowsFrameTargets | Affichage.ts:56-70 | with every image loaded, cells included, a frame is a clear followed by exactly the targets of the paint order, each cell's foreground after its background |
| Engine.AddObjects | Engine.ts:73-75 | the arguments are appended in order after the unchanged list; nothing else changes |
| Engine.AddKeepsValid | Engine.ts:73-75 | adding existing entities keeps the invariant |
| Engine.SpliceOne | Engine.ts:83 | `splice(k, 1)`: an in-range index removes that element, a negative one counts from the end, a start past the end removes nothing |
| Engine.RemoveOne | Engine.ts:82-84 | a present object loses its first occurrence and everything else keeps its order; an absent one removes the last object; an empty list stays empty |
| Engine.RemoveAll | Engine.ts:82-84 | each argument removes exactly one entry while the list is non-empty, present or not, so the length drops by the number of arguments down to 0; one argument is exactly one `splice(indexOf)` removal; no object is added |
| Engine.RemoveObjects | Engine.ts:82-84 | removal touches only the list; it loses one entry per argument down to 0, so removing an absent object is never a no-op on a non-empty list; one argument is exactly one `splice(indexOf)` removal |
| Engine.RemoveAllObjects | Engine.ts:90-92 | clearing empties the list and keeps the entities |
| Engine.RemoveUndoesAdd | Engine.ts:73-84 | removing an object just appended to a list that lacked it restores the list |
| Engine.RemoveKeepsValid | Engine.ts:82-92 | removals and clearing keep the invariant |
| Engine.UpdateAll | Engine.ts:117-119 | the update pass keeps every position and class; unlisted entities are untouched |
| Engine.UpdateAllOnce | Engine.ts:117-119 | with no object listed twice, each listed entity gets exactly one (0, 0) update |
| Engine.Tick | Engine.ts:117-119 | the update pass changes only entities, never identities |
| Engine.TickKeepsValid | Engine.ts:117-119 | the update pass keeps ranks, selection and the invariant |
| Engine.DrawLoop | Engine.ts:106-110 | one turn keeps positions, the list and the registry; with no object listed twice, each listed entity gets exactly one update; the frame is the compositor's frame of the updated scene, starting with a full clear |
| Engine.StartLoop | Engine.ts:52-57 | the first frame is the compositor's frame of the scene, starting with a clear, and the scene is not updated |
| Engine.DrawLoopIsStartOfTicked | Engine.ts:106-110 | every later turn equals the first frame of the scene after one update pass |
| ListenerManager.Resolve | ListenerManager.ts:149-171 | a resolved target has an action and contains the point; a draggable one is active and on top; the earliest draggable hit wins, else the foreground of the earliest cell-foreground hit, else the earliest other hit; nothing is returned exactly when nothing is hit |
| ListenerManager.ResolvedMovableIsActiveAndOnTop | ListenerManager.ts:154-158 | under the invariant a resolved draggable entity is active and strictly above every other grabbable entity at the point |
| ListenerManager.MovablesTakePriority | ListenerManager.ts:154-159 | any draggable hit makes the result a draggable entity |
| ListenerManager.ForegroundBeforeCell | ListenerManager.ts:160-165 | with no draggable hit, a hit cell foreground is returned rather than a cell |
| ListenerManager.EarliestCellWins | ListenerManager.ts:160-165 | with no draggable hit, the click resolves to the foreground of the earliest listed cell-foreground hit |
| ListenerManager.EarliestOtherWins | ListenerManager.ts:166-170 | with neither a draggable nor a cell-foreground hit, the click resolves to the earliest listed other hit |
| ListenerManager.ResolveEvent | ListenerManager.ts:106-107 | an event with an undefined coordinate resolves nothing |
| ListenerManager.Timeout | ListenerManager.ts:112-115 | the timer returns the machine to the first-click state and drops the candidate |
| ListenerManager.Advance | ListenerManager.ts:112-115 | a timer fires exactly when its deadline has passed |
| ListenerManager.FirstClick | ListenerManager.ts:105-117 | a first click always cancels the timer; with a candidate it waits for a second click on it with a 200 ms deadline, otherwise it stays in the first-click state |
| ListenerManager.SecondClick | ListenerManager.ts:126-133 | the action runs exactly when the candidate has one and the click resolves to it; the machine always returns to the first-click state and keeps the timer |
| ListenerManager.Click | ListenerManager.ts:105-133 | an action runs only on a second click before the deadline that resolves to the candidate; a new wait always has a fresh deadline |
| ListenerManager.StaysArmed | ListenerManager.ts:109-115 | waiting for a second click always comes with a pending timer |
| ListenerManager.StaleTimerHarmless | ListenerManager.ts:112-115 | a leftover timer firing in the first-click state changes nothing |
| ListenerManager.DoubleClickInvokes | ListenerManager.ts:105-133 | two clicks on one target less than 200 ms apart invoke its action once, on the second click |
| ListenerManager.SlowSecondClickRestarts | ListenerManager.ts:112-115 | a second click 200 ms or later invokes nothing and starts a new wait |
| ListenerManager.DifferentTargetsDoNotInvoke | ListenerManager.ts:129-132 | clicks on two different targets invoke nothing |
| ListenerManager.TimelineScenario | ListenerManager.ts:39 | clicks at 0 and 100 ms invoke the action; clicks at 0 and 250 ms do not |
| Structure.CellEntity | Structure.ts:46 | a grid cell is placed at its slot, sized by its image times the scale, with no foreground |
| Structure.Column | Structure.ts:44-50 | a column holds `lines` slots at one abscissa, `sideY` apart from the top |
| Structure.LayoutColumnMajor | Structure.ts:42-51 | slot `i * lines + j` is column `i`, row `j` |
| Structure.BuiltGrid | Structure.ts:42-51 | a finished layout holds, for each column and row, the cell built at that slot |
| Structure.AddCell | Structure.ts:46-48 | each cell is built under the next identity and appended to the engine list |
| Structure.BuildColumn | Structure.ts:44-50 | the inner loop builds one column, top to bottom |
| Structure.NextColumn | Structure.ts:43-51 | each pass of the outer loop extends the layout by one column |
| Structure.DrawGrid | Structure.ts:37-55 | the grid has `cols * lines` cells with fresh consecutive identities; column `i`, row `j` is at `(x + i * width / cols, y + j * height / lines)`, sized by its image; the cells are appended to the engine list in that order; the invariant is kept |

## Left out

- Image loading and the resource catalogue: an image is a record with its size, frame count
  and a `loaded` flag.
- Statistics, the path finder, the PIXI bootstrap, logging and the canvas singleton. The
  surface is a constant record (width, height, page offsets). Recording statistics is an
  effect value `AddStats(mode)`.
- Browser mechanics: `requestAnimationFrame`, `setTimeout`/`clearTimeout`, jQuery
  bind/unbind, `addListenerOn`/`removeListenerOn`, `addMovableOnCanvasListener`, orientation
  handling, alerts, tutorial DOM helpers and `preventDefault`. Time and events are explicit
  inputs.
- Image smoothing (`setSmoothing`) and the canvas path and stroke calls of the grid builder:
  they set drawing flags only.
- Pixel drawing: a frame is a list of clear and blit operations.
- The frame timestamp passed to `update`, which the source never reads.
- Floating point: coordinates are exact reals. NaN, Infinity and rounding are not modelled.
- A zero scale: `Scale` excludes 0, because the blit source rectangle divides by it.
- Movables.OnPointerMove: requires both coordinates to be defined. In the source, an
  undefined coordinate turns the position into NaN when an entity is already selected;
  otherwise the hit-test finds nothing and the move does nothing.
- The double-click action's side effects: an action is an opaque token, and a click reports
  which one it invoked.
- A click at exactly the deadline is taken after the timer fires.
- Two cells sharing one foreground sprite object, and a draggable entity used as a foreground:
  a foreground is a plain sprite addressed through its owning cell.
- Foreground identity across a double click: a click target is a cell's foreground slot, not
  the sprite object. If the cell installs a new foreground with an action between the two
  clicks, the model treats it as the same target and invokes the new foreground's action; the
  source compares sprite objects by identity and invokes nothing.
- Duplicate entries in the registry, which the invariant excludes.
- Entity getters and setters. They are plain field reads and writes: a cell's path flags
  (`start`, `end`, `wall`, `mandatory`, `drawn`) live in `Cells.CellPart`; a draggable
  entity's `setSelected`, `setActive` and `setZ_index` write `Scenes.MovableFields`.

=== FILE: affichage.dfy ===
/**
 * The compositor: each frame clears the surface, paints the non-draggable entities in list
 * order, then the draggable ones in ascending rank so the highest rank ends on top.
 */
module Affichage {
  import opened Options
  import opened Seqs
  import opened Sprites
  import opened Scenes

  /** One surface operation. */
  datatype Op = Clear(width: real, height: real) | Paint(who: Target, blit: Blit)

  /** Clearing the whole surface. */
  function ClearAll(s: Scene): (r: Op)
    ensures r.Clear? && r.width == s.surface.width && r.height == s.surface.height
  {
    Clear(s.surface.width, s.surface.height)
  }

  /** The non-draggable entries of `objects`, in list order. */
  function NonMovablesOf(s: Scene, objects: seq<Id>): seq<Id> {
    Filter(objects, (id: Id) => !IsMovable(s, id))
  }

  /** The draggable entries of `objects`, in list order. */
  function MovablesOf(s: Scene, objects: seq<Id>): seq<Id> {
    Filter(objects, (id: Id) => IsMovable(s, id))
  }

  /** Ranks never decrease along `ids`. */
  ghost predicate SortedByRank(s: Scene, ids: seq<Id>) {
    forall i, j :: 0 <= i < j < |ids| ==> Rank(s, ids[i]) <= Rank(s, ids[j])
  }

  /** Inserts `id` after every entry of rank at most its own (so equal ranks keep their order). */
  function Insert(s: Scene, id: Id, sorted: seq<Id>): (r: seq<Id>)
    requires SortedByRank(s, sorted)
    ensures SortedByRank(s, r)
    ensures multiset(r) == multiset(sorted) + multiset{id}
    ensures |r| == |sorted| + 1
    ensures forall i :: 0 <= i < |r| ==> r[i] == id || r[i] in sorted
  {
    if |sorted| == 0 then [id]
    else if Rank(s, id) < Rank(s, sorted[0]) then
      ConsSorted(s, id, sorted);
      [id] + sorted
    else
      var rest := Insert(s, id, sorted[1..]);
      InsertBehindHead(s, id, sorted, rest);
      [sorted[0]] + rest
  }

  /** Putting the head of a sorted list in front of the insertion into its tail. */
  lemma InsertBehindHead(s: Scene, id: Id, sorted: seq<Id>, rest: seq<Id>)
    requires |sorted| > 0 && SortedByRank(s, sorted) && Rank(s, sorted[0]) <= Rank(s, id)
    requires SortedByRank(s, rest) && multiset(rest) == multiset(sorted[1..]) + multiset{id}
    requires forall i :: 0 <= i < |rest| ==> rest[i] == id || rest[i] in sorted[1..]
    ensures SortedByRank(s, [sorted[0]] + rest)
    ensures multiset([sorted[0]] + rest) == multiset(sorted) + multiset{id}
    ensures forall i :: 0 <= i < |[sorted[0]] + rest| ==> ([sorted[0]] + rest)[i] == id || ([sorted[0]] + rest)[i] in sorted
  {
    assert sorted == [sorted[0]] + sorted[1..];
    forall i | 0 <= i < |rest| ensures Rank(s, sorted[0]) <= Rank(s, rest[i]) {
      if rest[i] != id {
        var k :| 0 <= k < |sorted[1..]| && sorted[1..][k] == rest[i];
        assert sorted[k + 1] == rest[i];
      }
    }
    ConsSorted(s, sorted[0], rest);
  }

  /** A head ranked at most every entry of a sorted list keeps it sorted. */
  lemma ConsSorted(s: Scene, h: Id, rest: seq<Id>)
    requires SortedByRank(s, rest)
    requires forall i :: 0 <= i < |rest| ==> Rank(s, h) <= Rank(s, rest[i])
    ensures SortedByRank(s, [h] + rest)
  {
    var r := [h] + rest;
    forall i, j | 0 <= i < j < |r| ensures Rank(s, r[i]) <= Rank(s, r[j]) {
      assert r[j] == rest[j - 1];
      if i > 0 {
        assert r[i] == rest[i - 1];
      }
    }
  }

  /** Insertion sort by ascending rank; entries of equal rank keep their input order. */
  function SortByRank(s: Scene, ids: seq<Id>): (r: seq<Id>)
    ensures SortedByRank(s, r)
    ensures multiset(r) == multiset(ids)
    decreases |ids|
  {
    if |ids| == 0 then []
    else
      assert ids == ids[..|ids| - 1] + [ids[|ids| - 1]];
      Insert(s, ids[|ids| - 1], SortByRank(s, ids[..|ids| - 1]))
  }

  /** The order in which `objects` are painted. */
  function PaintOrder(s: Scene, objects: seq<Id>): seq<Id> {
    NonMovablesOf(s, objects) + SortByRank(s, MovablesOf(s, objects))
  }

  /**
   * The paint order: first the non-draggable entities exactly as they occur in the list, then
   * every draggable one, in ascending rank. Every object is painted exactly as often as it occurs.
   */
  lemma PaintOrderSpec(s: Scene, objects: seq<Id>)
    ensures var r := PaintOrder(s, objects);
      var n := |NonMovablesOf(s, objects)|;
      && n <= |r|
      && r[..n] == NonMovablesOf(s, objects)
      && (forall i :: 0 <= i < n ==> !IsMovable(s, r[i]))
      && (forall i :: n <= i < |r| ==> IsMovable(s, r[i]))
      && SortedByRank(s, r[n..])
      && multiset(r) == multiset(objects)
  {
    PaintOrderPartition(s, objects);
    PaintOrderPermutes(s, objects);
  }

  lemma PaintOrderPartition(s: Scene, objects: seq<Id>)
    ensures var r := PaintOrder(s, objects);
      var n := |NonMovablesOf(s, objects)|;
      && n <= |r|
      && r[..n] == NonMovablesOf(s, objects)
      && r[n..] == SortByRank(s, MovablesOf(s, objects))
      && (forall i :: 0 <= i < n ==> !IsMovable(s, r[i]))
      && (forall i :: n <= i < |r| ==> IsMovable(s, r[i]))
  {
    var non := NonMovablesOf(s, objects);
    var mov := MovablesOf(s, objects);
    ConcatSplits(s, non, mov, SortByRank(s, mov));
  }

  /** A non-draggable list followed by a rearrangement of a draggable one splits back at the seam. */
  lemma ConcatSplits(s: Scene, non: seq<Id>, mov: seq<Id>, sorted: seq<Id>)
    requires forall i :: 0 <= i < |non| ==> !IsMovable(s, non[i])
    requires forall i :: 0 <= i < |mov| ==> IsMovable(s, mov[i])
    requires multiset(sorted) == multiset(mov)
    ensures var r := non + sorted;
      && r[..|non|] == non && r[|non|..] == sorted
      && (forall i :: 0 <= i < |non| ==> !IsMovable(s, r[i]))
      && (forall i :: |non| <= i < |r| ==> IsMovable(s, r[i]))
  {
    var r := non + sorted;
    assert r[..|non|] == non && r[|non|..] == sorted;
    forall i | |non| <= i < |r|
      ensures IsMovable(s, r[i])
    {
      SortedStaysMovable(s, mov, sorted, i - |non|);
    }
  }

  /** Every entry of a rearrangement of draggable entries is draggable. */
  lemma SortedStaysMovable(s: Scene, mov: seq<Id>, sorted: seq<Id>, k: nat)
    requires forall i :: 0 <= i < |mov| ==> IsMovable(s, mov[i])
    requires multiset(sorted) == multiset(mov) && k < |sorted|
    ensures IsMovable(s, sorted[k])
  {
    assert sorted[k] in multiset(mov);
    var m :| 0 <= m < |mov| && mov[m] == sorted[k];
  }

  lemma PaintOrderPermutes(s: Scene, objects: seq<Id>)
    ensures multiset(PaintOrder(s, objects)) == multiset(objects)
  {
    var non := NonMovablesOf(s, objects);
    var mov := MovablesOf(s, objects);
    PartitionKeepsAll(s, objects);
    var sorted := SortByRank(s, mov);
    assert multiset(non + sorted) == multiset(non) + multiset(sorted);
  }

  /** Splitting a list into its non-draggable and draggable entries loses and adds nothing. */
  lemma {:induction false} PartitionKeepsAll(s: Scene, objects: seq<Id>)
    ensures multiset(NonMovablesOf(s, objects)) + multiset(MovablesOf(s, objects)) == multiset(objects)
  {
    if |objects| > 0 {
      var h, tail := objects[0], objects[1..];
      PartitionKeepsAll(s, tail);
      assert objects == [h] + tail;
      if IsMovable(s, h) {
        assert NonMovablesOf(s, objects) == NonMovablesOf(s, tail);
        assert MovablesOf(s, objects) == [h] + MovablesOf(s, tail);
      } else {
        assert NonMovablesOf(s, objects) == [h] + NonMovablesOf(s, tail);
        assert MovablesOf(s, objects) == MovablesOf(s, tail);
      }
    }
  }

  /** Every non-draggable entity is painted before every draggable one. */
  lemma NonMovablesPaintFirst(s: Scene, objects: seq<Id>)
    ensures var r := PaintOrder(s, objects);
      forall i, j :: 0 <= i < |r| && 0 <= j < |r| && !IsMovable(s, r[i]) && IsMovable(s, r[j]) ==> i < j
  {
    PaintOrderSpec(s, objects);
  }

  /** Under the invariant the ranks of listed draggable entities are distinct, so they paint in strictly ascending rank. */
  lemma MovablesPaintStrictlyAscending(s: Scene, objects: seq<Id>)
    requires Valid(s) && NoDup(objects)
    ensures var r := PaintOrder(s, objects);
      forall i, j :: 0 <= i < j < |r| && IsMovable(s, r[i]) && IsMovable(s, r[j]) ==> Rank(s, r[i]) < Rank(s, r[j])
  {
    var r := PaintOrder(s, objects);
    var n := |NonMovablesOf(s, objects)|;
    PaintOrderPartition(s, objects);
    PaintOrderPermutes(s, objects);
    assert SortedByRank(s, r[n..]);
    forall i, j | 0 <= i < j < |r| && IsMovable(s, r[i]) && IsMovable(s, r[j])
      ensures Rank(s, r[i]) < Rank(s, r[j])
    {
      AscendingPair(s, objects, r, n, i, j);
    }
  }

  /** One pair of the previous lemma, for any rearrangement whose draggable part is sorted. */
  lemma AscendingPair(s: Scene, objects: seq<Id>, r: seq<Id>, n: nat, i: nat, j: nat)
    requires Valid(s) && NoDup(objects) && multiset(r) == multiset(objects)
    requires n <= |r| && (forall k :: 0 <= k < n ==> !IsMovable(s, r[k]))
    requires SortedByRank(s, r[n..])
    requires i < j < |r| && IsMovable(s, r[i]) && IsMovable(s, r[j])
    ensures Rank(s, r[i]) < Rank(s, r[j])
  {
    assert n <= i;
    assert r[n..][i - n] == r[i] && r[n..][j - n] == r[j];
    NoDupPermutation(objects, r, i, j);
    DistinctRanks(s, r[i], r[j]);
  }

  /** Under the invariant two different draggable entities never share a rank. */
  lemma DistinctRanks(s: Scene, a: Id, b: Id)
    requires Valid(s) && IsMovable(s, a) && IsMovable(s, b) && a != b
    ensures Rank(s, a) != Rank(s, b)
  {
    var i :| 0 <= i < |s.registry| && s.registry[i] == a;
    var j :| 0 <= j < |s.registry| && s.registry[j] == b;
    assert RankSeq(s)[i] != RankSeq(s)[j];
  }

  /** A rearrangement of a list without repetitions has none either. */
  lemma NoDupPermutation(xs: seq<Id>, ys: seq<Id>, i: nat, j: nat)
    requires NoDup(xs) && multiset(ys) == multiset(xs)
    requires i < j < |ys|
    ensures ys[i] != ys[j]
  {
    if ys[i] == ys[j] {
      var x := ys[i];
      assert multiset(ys)[x] >= 2 by {
        assert ys == ys[..j] + [ys[j]] + ys[j + 1..];
        assert ys[..j] == ys[..i] + [ys[i]] + ys[i + 1..j];
        assert multiset(ys[..j])[x] >= 1;
      }
      CountAtMostOne(xs, x);
    }
  }

  lemma {:induction false} CountAtMostOne(xs: seq<Id>, x: Id)
    requires NoDup(xs)
    ensures multiset(xs)[x] <= 1
  {
    if |xs| > 0 {
      assert NoDup(xs[1..]);
      CountAtMostOne(xs[1..], x);
      assert xs == [xs[0]] + xs[1..];
      if xs[0] == x {
        assert x !in xs[1..];
      }
    }
  }

  /** The blit of one sprite, tagged with what it paints (nothing while its image is not loaded). */
  function PaintSprite(sp: Sprite, who: Target): (r: seq<Op>)
    ensures |r| <= 1
    ensures |r| == 1 <==> sp.image.loaded
    ensures |r| == 1 ==> r[0] == Paint(who, Draw(sp).value)
  {
    match Draw(sp)
    case None => []
    case Some(b) => [Paint(who, b)]
  }

  /** Paints one entity; a cell paints its background, then its foreground. */
  function PaintEntity(s: Scene, id: Id): (r: seq<Op>)
    ensures forall i :: 0 <= i < |r| ==> r[i].Paint? && (r[i].who == Whole(id) || r[i].who == Foreground(id))
    ensures id !in s.entities ==> r == []
    ensures id in s.entities && !IsCell(s, id) ==> r == PaintSprite(s.entities[id].sprite, Whole(id))
    ensures IsCell(s, id) ==>
              var part := s.entities[id].kind.part;
              r == PaintSprite(s.entities[id].sprite, Whole(id)) +
                   (if part.fg.Some? then PaintSprite(part.fg.value, Foreground(id)) else [])
  {
    if id !in s.entities then []
    else
      var e := s.entities[id];
      var fg := if e.kind.Cell? && e.kind.part.fg.Some? then PaintSprite(e.kind.part.fg.value, Foreground(id)) else [];
      PaintSprite(e.sprite, Whole(id)) + fg
  }

  /** Paints a list of entities in order. */
  function PaintAll(s: Scene, ids: seq<Id>): (r: seq<Op>)
    ensures forall i :: 0 <= i < |r| ==> r[i].Paint?
    ensures forall i :: 0 <= i < |r| ==> exists k :: 0 <= k < |ids| && (r[i].who == Whole(ids[k]) || r[i].who == Foreground(ids[k]))
    decreases |ids|
  {
    if |ids| == 0 then []
    else
      var head := PaintEntity(s, ids[0]);
      var rest := PaintAll(s, ids[1..]);
      assert forall i :: 0 <= i < |rest| ==> exists k :: 0 < k < |ids| && (rest[i].who == Whole(ids[k]) || rest[i].who == Foreground(ids[k])) by {
        forall i | 0 <= i < |rest|
          ensures exists k :: 0 < k < |ids| && (rest[i].who == Whole(ids[k]) || rest[i].who == Foreground(ids[k]))
        {
          var k :| 0 <= k < |ids[1..]| && (rest[i].who == Whole(ids[1..][k]) || rest[i].who == Foreground(ids[1..][k]));
          assert ids[1..][k] == ids[k + 1];
        }
      }
      head + rest
  }

  /**
   * One frame of the compositor: a clear of the whole surface, then the paint operations in
   * paint order. Nothing else is painted and no entity changes.
   */
  function Render(s: Scene, objects: seq<Id>): (r: seq<Op>)
    ensures |r| >= 1 && r[0] == ClearAll(s)
    ensures forall i :: 1 <= i < |r| ==> r[i].Paint?
    ensures forall i :: 1 <= i < |r| ==>
              exists k :: 0 <= k < |objects| && (r[i].who == Whole(objects[k]) || r[i].who == Foreground(objects[k]))
  {
    var order := PaintOrder(s, objects);
    var ops := PaintAll(s, order);
    PaintOrderSpec(s, objects);
    forall i | 0 <= i < |ops|
      ensures exists k :: 0 <= k < |objects| && (ops[i].who == Whole(objects[k]) || ops[i].who == Foreground(objects[k]))
    {
      var k :| 0 <= k < |order| && (ops[i].who == Whole(order[k]) || ops[i].who == Foreground(order[k]));
      assert order[k] in multiset(order);
      assert order[k] in objects;
    }
    [ClearAll(s)] + ops
  }

  /** Without cells and with every image loaded, a frame paints exactly one blit per listed entity, in paint order. */
  lemma {:induction false} PaintAllOnePerEntity(s: Scene, ids: seq<Id>)
    requires forall i :: 0 <= i < |ids| ==> ids[i] in s.entities && !IsCell(s, ids[i]) && s.entities[ids[i]].sprite.image.loaded
    ensures |PaintAll(s, ids)| == |ids|
    ensures forall i :: 0 <= i < |ids| ==> PaintAll(s, ids)[i].who == Whole(ids[i])
    decreases |ids|
  {
    if |ids| > 0 {
      PaintAllOnePerEntity(s, ids[1..]);
    }
  }

  /** The same for a whole frame: after the clear, the painted targets follow the paint order exactly. */
  lemma RenderFollowsPaintOrder(s: Scene, objects: seq<Id>)
    requires forall i :: 0 <= i < |objects| ==>
               objects[i] in s.entities && !IsCell(s, objects[i]) && s.entities[objects[i]].sprite.image.loaded
    ensures var order := PaintOrder(s, objects);
      var r := Render(s, objects);
      |r| == |order| + 1 && forall i :: 0 <= i < |order| ==> r[i + 1].who == Whole(order[i])
  {
    var order := PaintOrder(s, objects);
    PaintOrderSpec(s, objects);
    forall i | 0 <= i < |order|
      ensures order[i] in s.entities && !IsCell(s, order[i]) && s.entities[order[i]].sprite.image.loaded
    {
      assert order[i] in multiset(order);
      assert order[i] in objects;
    }
    PaintAllOnePerEntity(s, order);
  }

  /** The targets of the paint operations in `ops`, in order. */
  function WhoOf(ops: seq<Op>): seq<Target>
    decreases |ops|
  {
    if |ops| == 0 then []
    else (if ops[0].Paint? then [ops[0].who] else []) + WhoOf(ops[1..])
  }

  lemma {:induction false} WhoOfAppend(a: seq<Op>, b: seq<Op>)
    ensures WhoOf(a + b) == WhoOf(a) + WhoOf(b)
    decreases |a|
  {
    if |a| > 0 {
      assert (a + b)[1..] == a[1..] + b;
      WhoOfAppend(a[1..], b);
    } else {
      assert a + b == b;
    }
  }

  /** Every listed entity exists and its images, the foreground of a cell included, are loaded. */
  ghost predicate AllLoaded(s: Scene, ids: seq<Id>) {
    forall i :: 0 <= i < |ids| ==> Loaded(s, ids[i])
  }

  ghost predicate Loaded(s: Scene, id: Id) {
    && id in s.entities
    && s.entities[id].sprite.image.loaded
    && (IsCell(s, id) && s.entities[id].kind.part.fg.Some? ==> s.entities[id].kind.part.fg.value.image.loaded)
  }

  /** What a frame shows of `ids` once everything is loaded: each entity, followed by its foreground if it is a cell that has one. */
  function FrameTargets(s: Scene, ids: seq<Id>): seq<Target>
    decreases |ids|
  {
    if |ids| == 0 then []
    else
      var id := ids[0];
      [Whole(id)] + (if IsCell(s, id) && s.entities[id].kind.part.fg.Some? then [Foreground(id)] else [])
      + FrameTargets(s, ids[1..])
  }

  /** With everything loaded, painting a list shows exactly its frame targets: a cell's background, then its foreground. */
  lemma {:induction false} PaintAllTargets(s: Scene, ids: seq<Id>)
    requires AllLoaded(s, ids)
    ensures WhoOf(PaintAll(s, ids)) == FrameTargets(s, ids)
    decreases |ids|
  {
    if |ids| > 0 {
      var id := ids[0];
      assert Loaded(s, id);
      assert AllLoaded(s, ids[1..]) by {
        forall i | 0 <= i < |ids[1..]| ensures Loaded(s, ids[1..][i]) {
          assert ids[1..][i] == ids[i + 1];
        }
      }
      PaintAllTargets(s, ids[1..]);
      var head := PaintEntity(s, id);
      WhoOfAppend(head, PaintAll(s, ids[1..]));
      var e := s.entities[id];
      var bg := PaintSprite(e.sprite, Whole(id));
      assert WhoOf(bg) == [Whole(id)] by {
        assert WhoOf(bg[1..]) == [];
      }
      if IsCell(s, id) && e.kind.part.fg.Some? {
        var fg := PaintSprite(e.kind.part.fg.value, Foreground(id));
        assert WhoOf(fg) == [Foreground(id)] by {
          assert WhoOf(fg[1..]) == [];
        }
        WhoOfAppend(bg, fg);
      } else if IsCell(s, id) {
        assert head == bg + [];
      }
    }
  }

  /** With everything loaded, cells included, a frame is a clear followed by exactly the frame targets of the paint order. */
  lemma RenderShowsFrameTargets(s: Scene, objects: seq<Id>)
    requires AllLoaded(s, objects)
    ensures var r := Render(s, objects);
      r[0] == ClearAll(s) && WhoOf(r[1..]) == FrameTargets(s, PaintOrder(s, objects))
  {
    var order := PaintOrder(s, objects);
    PaintOrderPermutes(s, objects);
    forall i | 0 <= i < |order| ensures Loaded(s, order[i]) {
      assert order[i] in multiset(objects);
      var k :| 0 <= k < |objects| && objects[k] == order[i];
    }
    PaintAllTargets(s, order);
    assert Render(s, objects)[1..] == PaintAll(s, order);
  }
}

=== FILE: canvas.dfy ===
/** The drawing surface's geometry, fixed for the lifetime of a scene. */
module Canvas {

  /** Surface extent and its offset on the page (pointer coordinates are page coordinates). */
  datatype Surface = Surface(width: real, height: real, offsetLeft: real, offsetTop: real)
}

=== FILE: cell.dfy ===
/**
 * Grid cells: a background sprite that may carry an owned foreground sprite placed at a fixed
 * offset from the cell, plus path flags and adjacency predicates.
 */
module Cells {
  import opened Options
  import opened Canvas
  import opened Sprites

  /** What a cell adds to its background sprite. */
  datatype CellPart = CellPart(
    fg: Option<Sprite>,           // the foreground sprite, owned by the cell
    offsetX: real, offsetY: real, // foreground position relative to the cell
    start: bool, end: bool, wall: bool, mandatory: bool,
    drawn: bool)                  // whether a foreground was ever set

  datatype Cell = Cell(bg: Sprite, part: CellPart)

  /** Construction: a background sprite with speed 0, no foreground and every flag unset. */
  function New(image: Image, x: real, y: real, scale: Scale): (r: Cell)
    ensures r.bg == Sprites.New(image, x, y, 0, scale)
    ensures r.part.fg == None && !r.part.drawn
    ensures !r.part.start && !r.part.end && !r.part.wall && !r.part.mandatory
  {
    Cell(Sprites.New(image, x, y, 0, scale), CellPart(None, 0.0, 0.0, false, false, false, false, false))
  }

  /**
   * A freshly built cell's background never changes frame, however many frame-clock updates
   * it receives: its speed is 0 and the tick counter is incremented before being compared.
   */
  lemma BackgroundNeverAnimates(image: Image, x: real, y: real, scale: Scale, count: nat)
    ensures Ticks(New(image, x, y, scale).bg, count).currentFrame == 0
  {
    FrameFrozenPastSpeed(New(image, x, y, scale).bg, count);
  }

  /**
   * Update: the background is updated with the (sentinel) coordinates, then the foreground,
   * if any, with the cell's position plus the offset.
   */
  function Update(c: Cell, x: real, y: real): (r: Cell)
    ensures r.bg == Sprites.Update(c.bg, x, y)
    ensures c.part.fg.None? ==> r.part == c.part
    ensures c.part.fg.Some? ==> r.part == c.part.(fg := r.part.fg) && r.part.fg.Some?
    ensures c.part.fg.Some? ==>
              r.part.fg.value == Sprites.Update(c.part.fg.value, r.bg.x + c.part.offsetX, r.bg.y + c.part.offsetY)
  {
    var bg := Sprites.Update(c.bg, x, y);
    if c.part.fg.None? then Cell(bg, c.part)
    else if x != 0.0 && y != 0.0 then
      Cell(bg, c.part.(fg := Some(Sprites.Update(c.part.fg.value, x + c.part.offsetX, y + c.part.offsetY))))
    else
      Cell(bg, c.part.(fg := Some(Sprites.Update(c.part.fg.value, bg.x + c.part.offsetX, bg.y + c.part.offsetY))))
  }

  /**
   * After an update the foreground sits at the cell's position plus the offset, except on an
   * axis where that sum is exactly 0: the zero sentinel then leaves the foreground where it was.
   */
  lemma ForegroundFollowsOwner(c: Cell, x: real, y: real)
    requires c.part.fg.Some?
    ensures var r := Update(c, x, y);
      && r.part.fg.Some?
      && (r.bg.x + c.part.offsetX != 0.0 ==> r.part.fg.value.x == r.bg.x + c.part.offsetX)
      && (r.bg.x + c.part.offsetX == 0.0 ==> r.part.fg.value.x == c.part.fg.value.x)
      && (r.bg.y + c.part.offsetY != 0.0 ==> r.part.fg.value.y == r.bg.y + c.part.offsetY)
      && (r.bg.y + c.part.offsetY == 0.0 ==> r.part.fg.value.y == c.part.fg.value.y)
  {
  }

  /**
   * Sets the foreground sprite and marks the cell drawn. A missing or zero offset centres the
   * foreground on that axis, using the foreground's image size times its scale.
   */
  function SetSprite(c: Cell, sp: Sprite, offsetX: Option<real>, offsetY: Option<real>): (r: Cell)
    ensures r.bg == c.bg && r.part.fg == Some(sp) && r.part.drawn
    ensures offsetX.Some? && offsetX.value != 0.0 ==> r.part.offsetX == offsetX.value
    ensures offsetY.Some? && offsetY.value != 0.0 ==> r.part.offsetY == offsetY.value
    ensures offsetX.None? || offsetX.value == 0.0 ==> r.part.offsetX == c.bg.width / 2.0 - sp.image.width * sp.scale / 2.0
    ensures offsetY.None? || offsetY.value == 0.0 ==> r.part.offsetY == c.bg.height / 2.0 - sp.image.height * sp.scale / 2.0
    ensures r.part == c.part.(fg := Some(sp), drawn := true, offsetX := r.part.offsetX, offsetY := r.part.offsetY)
  {
    var ox := if offsetX.Some? && offsetX.value != 0.0 then offsetX.value
              else c.bg.width / 2.0 - sp.image.width * sp.scale / 2.0;
    var oy := if offsetY.Some? && offsetY.value != 0.0 then offsetY.value
              else c.bg.height / 2.0 - sp.image.height * sp.scale / 2.0;
    Cell(c.bg, c.part.(offsetX := ox, offsetY := oy, fg := Some(sp), drawn := true))
  }

  /**
   * A defaulted offset centres the foreground on its axis: on each axis where the offset is
   * missing or 0, a foreground sized from its image and placed at the cell's position plus that
   * offset has its centre on the cell's centre, whatever the other axis was given.
   */
  lemma DefaultOffsetCentres(c: Cell, sp: Sprite, offsetX: Option<real>, offsetY: Option<real>)
    requires sp.width == sp.image.width * sp.scale && sp.height == sp.image.height * sp.scale
    ensures var r := SetSprite(c, sp, offsetX, offsetY);
      && (offsetX.None? || offsetX == Some(0.0) ==> c.bg.x + r.part.offsetX + sp.width / 2.0 == c.bg.x + c.bg.width / 2.0)
      && (offsetY.None? || offsetY == Some(0.0) ==> c.bg.y + r.part.offsetY + sp.height / 2.0 == c.bg.y + c.bg.height / 2.0)
  {
  }

  /** Sets both foreground offsets verbatim. */
  function SetOffset(c: Cell, offsetX: real, offsetY: real): (r: Cell)
    ensures r.part.offsetX == offsetX && r.part.offsetY == offsetY
    ensures r.bg == c.bg && r.part == c.part.(offsetX := offsetX, offsetY := offsetY)
  {
    Cell(c.bg, c.part.(offsetX := offsetX, offsetY := offsetY))
  }

  /** Inclusive rectangle containment of a sprite's stored bounds in the cell's. */
  predicate HasSpriteInside(cell: Sprite, sp: Sprite) {
    sp.x >= cell.x && sp.y >= cell.y && sp.endX <= cell.endX && sp.endY <= cell.endY
  }

  /** Containment is reflexive (a cell contains itself) and transitive. */
  lemma InsideIsPreorder(a: Sprite, b: Sprite, c: Sprite)
    ensures HasSpriteInside(a, a)
    ensures HasSpriteInside(a, b) && HasSpriteInside(b, c) ==> HasSpriteInside(a, c)
  {
  }

  /** A point over a sprite inside the cell is over the cell. */
  lemma InsideSpritePointsAreInCell(cell: Sprite, sp: Sprite, c: Surface, px: real, py: real)
    requires BoundsAgree(cell) && BoundsAgree(sp)
    requires HasSpriteInside(cell, sp) && IsIn(sp, c, px, py)
    ensures IsIn(cell, c, px, py)
  {
  }

  datatype Direction = Any | Right | Left | Top | Bottom | Unknown

  /** `a` is directly right of `b`: same row, `a` starts where `b` ends. */
  predicate OnRight(a: Sprite, b: Sprite) { a.y == b.y && a.x == b.endX }
  /** `a` is directly left of `b`. */
  predicate OnLeft(a: Sprite, b: Sprite) { a.y == b.y && a.endX == b.x }
  /** `a` is directly above `b`. */
  predicate OnTop(a: Sprite, b: Sprite) { a.x == b.x && a.endY == b.y }
  /** `a` is directly below `b`. */
  predicate OnBottom(a: Sprite, b: Sprite) { a.x == b.x && a.y == b.endY }

  /** Whether cell `a` lies on side `d` of cell `b`; `Any` tries all four, unknown sides are false. */
  predicate IsNextTo(a: Sprite, b: Sprite, d: Direction) {
    match d
    case Right => OnRight(a, b)
    case Left => OnLeft(a, b)
    case Top => OnTop(a, b)
    case Bottom => OnBottom(a, b)
    case Any => OnRight(a, b) || OnLeft(a, b) || OnTop(a, b) || OnBottom(a, b)
    case Unknown => false
  }

  /** `Any` is exactly "next to on some side", and an unknown side never holds. */
  lemma AnyIsSomeSide(a: Sprite, b: Sprite)
    ensures IsNextTo(a, b, Any) <==>
      IsNextTo(a, b, Right) || IsNextTo(a, b, Left) || IsNextTo(a, b, Top) || IsNextTo(a, b, Bottom)
    ensures !IsNextTo(a, b, Unknown)
  {
  }

  /** Right and left are converse relations, and so are top and bottom. */
  lemma NextToConverse(a: Sprite, b: Sprite)
    ensures IsNextTo(a, b, Right) <==> IsNextTo(b, a, Left)
    ensures IsNextTo(a, b, Top) <==> IsNextTo(b, a, Bottom)
    ensures IsNextTo(a, b, Any) <==> IsNextTo(b, a, Any)
  {
  }

  /** A cell with positive size is never next to itself. */
  lemma NeverNextToItself(a: Sprite, d: Direction)
    requires BoundsAgree(a) && a.width > 0.0 && a.height > 0.0
    ensures !IsNextTo(a, a, d)
  {
  }

  /** Horizontally adjacent cells never both contain a pointer position (the edges are half-open). */
  lemma SideBySideCellsDisjoint(a: Sprite, b: Sprite, c: Surface, px: real, py: real)
    requires BoundsAgree(a) && BoundsAgree(b)
    requires IsNextTo(a, b, Right)
    ensures !(IsIn(a, c, px, py) && IsIn(b, c, px, py))
  {
  }

  /** Vertically adjacent cells never both contain a pointer position. */
  lemma StackedCellsDisjoint(a: Sprite, b: Sprite, c: Surface, px: real, py: real)
    requires BoundsAgree(a) && BoundsAgree(b)
    requires IsNextTo(a, b, Bottom)
    ensures !(IsIn(a, c, px, py) && IsIn(b, c, px, py))
  {
  }
}

=== FILE: engine.dfy ===
/**
 * The engine: the list of live objects, the additions and removals on it, and one turn of the
 * animation loop (update every object with the "keep position" coordinates 0, 0, then repaint).
 */
module Engine {
  import opened Seqs
  import opened Scenes
  import Affichage

  /** Appends `xs` to the engine list, in order; nothing else changes. */
  function AddObjects(s: Scene, xs: seq<Id>): (r: Scene)
    ensures |r.objects| == |s.objects| + |xs|
    ensures forall i :: 0 <= i < |s.objects| ==> r.objects[i] == s.objects[i]
    ensures forall i :: 0 <= i < |xs| ==> r.objects[|s.objects| + i] == xs[i]
    ensures r.entities == s.entities && r.registry == s.registry && r.nextId == s.nextId && r.surface == s.surface
  {
    s.(objects := s.objects + xs)
  }

  /** Adding existing entities keeps the invariant. */
  lemma AddKeepsValid(s: Scene, xs: seq<Id>)
    requires Valid(s)
    requires forall i :: 0 <= i < |xs| ==> xs[i] in s.entities
    ensures Valid(AddObjects(s, xs))
  {
    RegistryFrame(s, AddObjects(s, xs));
  }

  /**
   * `Array.prototype.splice(start, 1)`: a negative start counts from the end (clamped at 0);
   * a start at or past the end removes nothing.
   */
  function SpliceOne(xs: seq<Id>, start: int): (r: seq<Id>)
    ensures 0 <= start < |xs| ==> r == xs[..start] + xs[start + 1..]
    ensures start < 0 && |xs| > 0 ==> r == xs[..Clamped(|xs|, start)] + xs[Clamped(|xs|, start) + 1..]
    ensures start >= |xs| || xs == [] ==> r == xs
  {
    var k := if start < 0 then Clamped(|xs|, start) else start;
    if k >= |xs| then xs else xs[..k] + xs[k + 1..]
  }

  /** Where a negative splice start lands: `len + start`, but never below 0. */
  function Clamped(len: nat, start: int): (k: nat)
    requires start < 0
    ensures len > 0 ==> k < len
    ensures len + start >= 0 ==> k == len + start
  {
    if len + start < 0 then 0 else len + start
  }

  /**
   * Removal of one object from the engine list, as the list does it: splice at `indexOf`.
   * A present object loses its first occurrence; an absent one yields index -1, which removes
   * the LAST object instead; an empty list stays empty.
   */
  function RemoveOne(objs: seq<Id>, o: Id): (r: seq<Id>)
    ensures o in objs ==> |r| == |objs| - 1 && multiset(r) == multiset(objs) - multiset{o}
    ensures o in objs ==>
              exists k :: 0 <= k < |objs| && objs[k] == o && o !in objs[..k] && r == objs[..k] + objs[k + 1..]
    ensures o !in objs && |objs| > 0 ==> r == objs[..|objs| - 1]
    ensures objs == [] ==> r == []
  {
    var k := IndexOf(objs, o);
    var r := SpliceOne(objs, k);
    if k >= 0 then
      assert objs == objs[..k] + [objs[k]] + objs[k + 1..];
      r
    else r
  }

  /**
   * Removes each of `xs` in turn from the engine list. Every removal from a non-empty list drops
   * exactly one entry, present or not, so the list shrinks by one per argument until it is empty.
   */
  function RemoveAll(objs: seq<Id>, xs: seq<Id>): (r: seq<Id>)
    ensures |r| <= |objs|
    ensures forall i :: 0 <= i < |r| ==> r[i] in objs
    ensures |r| == if |xs| <= |objs| then |objs| - |xs| else 0
    ensures |xs| == 1 ==> r == RemoveOne(objs, xs[0])
    decreases |xs|
  {
    if |xs| == 0 then objs
    else
      var once := RemoveOne(objs, xs[0]);
      assert forall x :: x in once ==> x in objs by {
        if xs[0] in objs {
          assert multiset(once) <= multiset(objs);
          forall x | x in once ensures x in objs {
            assert x in multiset(once);
          }
        }
      }
      RemoveAll(once, xs[1..])
  }

  /** `removeObjects`: removes each argument in turn; nothing but the list changes. */
  function RemoveObjects(s: Scene, xs: seq<Id>): (r: Scene)
    ensures r == s.(objects := r.objects)
    ensures |r.objects| <= |s.objects|
    ensures forall i :: 0 <= i < |r.objects| ==> r.objects[i] in s.objects
    ensures |r.objects| == if |xs| <= |s.objects| then |s.objects| - |xs| else 0
    ensures |xs| == 1 ==> r.objects == RemoveOne(s.objects, xs[0])
  {
    s.(objects := RemoveAll(s.objects, xs))
  }

  /** `removeAllObjects`: empties the list; the entities themselves survive. */
  function RemoveAllObjects(s: Scene): (r: Scene)
    ensures r.objects == [] && r == s.(objects := [])
  {
    s.(objects := [])
  }

  /** Removing what was just added, when it was absent before, restores the list. */
  lemma RemoveUndoesAdd(objs: seq<Id>, o: Id)
    requires o !in objs
    ensures RemoveOne(objs + [o], o) == objs
  {
    var k := IndexOf(objs + [o], o);
    assert (objs + [o])[|objs|] == o;
    assert o !in (objs + [o])[..|objs|] by {
      assert (objs + [o])[..|objs|] == objs;
    }
    assert k == |objs|;
    assert (objs + [o])[..k] == objs;
  }

  /** Every removal keeps the invariant: the list only ever loses entries. */
  lemma RemoveKeepsValid(s: Scene, xs: seq<Id>)
    requires Valid(s)
    ensures Valid(RemoveObjects(s, xs)) && Valid(RemoveAllObjects(s))
  {
    RegistryFrame(s, RemoveObjects(s, xs));
    RegistryFrame(s, RemoveAllObjects(s));
  }

  /**
   * One update pass over `ids`, in list order: each occurrence updates its entity with the
   * coordinates 0, 0, so positions stay and animations advance.
   */
  function UpdateAll(ents: map<Id, Entity>, ids: seq<Id>): (r: map<Id, Entity>)
    ensures r.Keys == ents.Keys
    ensures forall id :: id in ents ==>
              r[id].sprite.x == ents[id].sprite.x && r[id].sprite.y == ents[id].sprite.y
    ensures forall id :: id in ents && !ents[id].kind.Cell? ==> r[id].kind == ents[id].kind
    ensures forall id :: id in ents && ents[id].kind.Cell? ==> r[id].kind.Cell?
    ensures forall id :: id in ents && id !in ids ==> r[id] == ents[id]
    decreases |ids|
  {
    if |ids| == 0 then ents
    else
      var next := if ids[0] in ents then ents[ids[0] := UpdateEntity(ents[ids[0]], 0.0, 0.0)] else ents;
      UpdateAll(next, ids[1..])
  }

  /** In a list without repetitions every listed entity is updated exactly once. */
  lemma {:induction false} UpdateAllOnce(ents: map<Id, Entity>, ids: seq<Id>, id: Id)
    requires NoDup(ids) && id in ids && id in ents
    ensures UpdateAll(ents, ids)[id] == UpdateEntity(ents[id], 0.0, 0.0)
    decreases |ids|
  {
    var next := if ids[0] in ents then ents[ids[0] := UpdateEntity(ents[ids[0]], 0.0, 0.0)] else ents;
    if ids[0] == id {
      assert id !in ids[1..];
    } else {
      assert id in ids[1..];
      assert NoDup(ids[1..]);
      UpdateAllOnce(next, ids[1..], id);
    }
  }

  /** `_updateSprites`: one update pass over the engine list. */
  function Tick(s: Scene): (r: Scene)
    ensures r == s.(entities := r.entities)
    ensures r.entities.Keys == s.entities.Keys
  {
    s.(entities := UpdateAll(s.entities, s.objects))
  }

  /** The update pass moves nothing, keeps every class, rank and selection, and keeps the invariant. */
  lemma TickKeepsValid(s: Scene)
    requires Valid(s)
    ensures Valid(Tick(s))
    ensures RankSeq(Tick(s)) == RankSeq(s)
    ensures forall id :: IsSelected(Tick(s), id) <==> IsSelected(s, id)
  {
    var s' := Tick(s);
    assert forall id :: IsMovable(s', id) <==> IsMovable(s, id);
    RegistryFrame(s, s');
  }

  /** The result of one turn of the loop: the updated scene and what was painted. */
  datatype Frame = Frame(scene: Scene, ops: seq<Affichage.Op>)

  /**
   * `_drawLoop`: update every listed object, then paint the updated scene. Positions are kept,
   * each listed entity is advanced by exactly one update when no object is listed twice, and the
   * frame is the compositor's frame of the updated scene, starting with a full clear.
   */
  function DrawLoop(s: Scene): (r: Frame)
    ensures r.scene.objects == s.objects && r.scene.registry == s.registry
    ensures r.scene.entities.Keys == s.entities.Keys
    ensures forall id :: id in s.entities ==>
              r.scene.entities[id].sprite.x == s.entities[id].sprite.x &&
              r.scene.entities[id].sprite.y == s.entities[id].sprite.y
    ensures NoDup(s.objects) ==> forall i :: 0 <= i < |s.objects| && s.objects[i] in s.entities ==>
              r.scene.entities[s.objects[i]] == UpdateEntity(s.entities[s.objects[i]], 0.0, 0.0)
    ensures |r.ops| >= 1 && r.ops[0] == Affichage.ClearAll(s)
    ensures r.ops == Affichage.Render(r.scene, s.objects)
  {
    var t := Tick(s);
    assert NoDup(s.objects) ==> forall i :: 0 <= i < |s.objects| && s.objects[i] in s.entities ==>
             t.entities[s.objects[i]] == UpdateEntity(s.entities[s.objects[i]], 0.0, 0.0) by {
      if NoDup(s.objects) {
        forall i | 0 <= i < |s.objects| && s.objects[i] in s.entities
          ensures t.entities[s.objects[i]] == UpdateEntity(s.entities[s.objects[i]], 0.0, 0.0)
        {
          UpdateAllOnce(s.entities, s.objects, s.objects[i]);
        }
      }
    }
    Frame(t, Affichage.Render(t, t.objects))
  }

  /** `startAnimationFrameLoop`: the first frame paints the scene without updating it. */
  function StartLoop(s: Scene): (r: Frame)
    ensures r.scene == s
    ensures |r.ops| >= 1 && r.ops[0] == Affichage.ClearAll(s)
    ensures forall i :: 1 <= i < |r.ops| ==> r.ops[i].Paint?
    ensures r.ops == Affichage.Render(s, s.objects)
  {
    Frame(s, Affichage.Render(s, s.objects))
  }

  /** Every later turn is the first frame of the updated scene: update, then paint as at start. */
  lemma DrawLoopIsStartOfTicked(s: Scene)
    ensures DrawLoop(s) == StartLoop(Tick(s))
  {
  }
}

=== FILE: listener.dfy ===
/**
 * Click handling on the surface: which target a click lands on (draggable entities first, then
 * cell foregrounds, then everything else), and the double-click recogniser as an explicit state
 * machine whose timer is a deadline compared against the time of each event.
 */
module ListenerManager {
  import opened Options
  import opened Seqs
  import opened Sprites
  import opened Scenes
  import opened Movables
  import Util

  /** A draggable entity with an action that is the top-most grabbable entity at the point. */
  predicate MovableHit(s: Scene, px: real, py: real, id: Id) {
    IsMovable(s, id) && ActionOf(s, Whole(id)).Some? && IsOnTopOf(s, id, px, py) && Contains(s, Whole(id), px, py)
  }

  /** A cell whose foreground sprite has an action and contains the point. */
  predicate CellHit(s: Scene, px: real, py: real, id: Id) {
    IsCell(s, id) && ActionOf(s, Foreground(id)).Some? && Contains(s, Foreground(id), px, py)
  }

  /** A non-draggable entity (a cell counts by its background) with an action containing the point. */
  predicate OtherHit(s: Scene, px: real, py: real, id: Id) {
    id in s.entities && !IsMovable(s, id) && ActionOf(s, Whole(id)).Some? && Contains(s, Whole(id), px, py)
  }

  /** Any of the three ways a listed entity can be hit. */
  predicate AnyHit(s: Scene, px: real, py: real, id: Id) {
    MovableHit(s, px, py, id) || CellHit(s, px, py, id) || OtherHit(s, px, py, id)
  }

  /**
   * The target of a click at (px, py), scanning the engine list three times: the first draggable
   * hit, else the foreground of the first cell-foreground hit, else the first other hit.
   */
  function Resolve(s: Scene, px: real, py: real): (r: Option<Target>)
    ensures r.Some? ==> ActionOf(s, r.value).Some? && Contains(s, r.value, px, py)
    ensures r.Some? && r.value.Whole? && IsMovable(s, r.value.id) ==>
              IsOnTopOf(s, r.value.id, px, py) && s.entities[r.value.id].kind.mv.active
    ensures r.None? <==> forall i :: 0 <= i < |s.objects| ==> !AnyHit(s, px, py, s.objects[i])
    ensures (exists i :: 0 <= i < |s.objects| && MovableHit(s, px, py, s.objects[i])) ==>
              r.Some? && r.value.Whole? && MovableHit(s, px, py, r.value.id)
    ensures (forall i :: 0 <= i < |s.objects| ==> !MovableHit(s, px, py, s.objects[i])) &&
            (exists i :: 0 <= i < |s.objects| && CellHit(s, px, py, s.objects[i])) ==>
              r.Some? && r.value.Foreground? && CellHit(s, px, py, r.value.owner)
    ensures r.Some? && r.value.Whole? ==> r.value.id in s.objects
    ensures r.Some? && r.value.Foreground? ==> r.value.owner in s.objects
    ensures r.Some? && r.value.Whole? && IsMovable(s, r.value.id) ==>
              exists k :: 0 <= k < |s.objects| && s.objects[k] == r.value.id && MovableHit(s, px, py, s.objects[k]) &&
                (forall i :: 0 <= i < k ==> !MovableHit(s, px, py, s.objects[i]))
    ensures r.Some? && r.value.Foreground? ==>
              && (forall i :: 0 <= i < |s.objects| ==> !MovableHit(s, px, py, s.objects[i]))
              && exists k :: 0 <= k < |s.objects| && s.objects[k] == r.value.owner && CellHit(s, px, py, s.objects[k]) &&
                   (forall i :: 0 <= i < k ==> !CellHit(s, px, py, s.objects[i]))
    ensures r.Some? && r.value.Whole? && !IsMovable(s, r.value.id) ==>
              && (forall i :: 0 <= i < |s.objects| ==> !MovableHit(s, px, py, s.objects[i]) && !CellHit(s, px, py, s.objects[i]))
              && exists k :: 0 <= k < |s.objects| && s.objects[k] == r.value.id && OtherHit(s, px, py, s.objects[k]) &&
                   (forall i :: 0 <= i < k ==> !OtherHit(s, px, py, s.objects[i]))
  {
    match FindFirst(s.objects, id => MovableHit(s, px, py, id))
    case Some(k) => Some(Whole(s.objects[k]))
    case None =>
      match FindFirst(s.objects, id => CellHit(s, px, py, id))
      case Some(k) => Some(Foreground(s.objects[k]))
      case None =>
        match FindFirst(s.objects, id => OtherHit(s, px, py, id))
        case Some(k) => Some(Whole(s.objects[k]))
        case None => None
  }

  /** Under the invariant, any draggable entity a click resolves to was active and the only top-most hit. */
  lemma ResolvedMovableIsActiveAndOnTop(s: Scene, px: real, py: real)
    requires Valid(s)
    ensures var r := Resolve(s, px, py);
      r.Some? && r.value.Whole? && IsMovable(s, r.value.id) ==>
        && s.entities[r.value.id].kind.mv.active
        && forall id :: Grabbable(s, id, px, py) && id != r.value.id ==> Rank(s, id) < Rank(s, r.value.id)
  {
    TopMostIsStrictlyHighest(s, px, py);
  }

  /** The earliest listed draggable hit wins over every cell and other entity. */
  lemma MovablesTakePriority(s: Scene, px: real, py: real, k: nat)
    requires k < |s.objects| && MovableHit(s, px, py, s.objects[k])
    ensures Resolve(s, px, py).Some? && Resolve(s, px, py).value.Whole?
    ensures IsMovable(s, Resolve(s, px, py).value.id)
  {
  }

  /** A click on a cell whose foreground has an action returns the foreground, not the cell, when no draggable entity is hit. */
  lemma ForegroundBeforeCell(s: Scene, px: real, py: real, k: nat)
    requires k < |s.objects| && CellHit(s, px, py, s.objects[k])
    requires forall i :: 0 <= i < |s.objects| ==> !MovableHit(s, px, py, s.objects[i])
    ensures Resolve(s, px, py).Some? && Resolve(s, px, py).value.Foreground?
  {
  }

  /** With no draggable hit, the click lands on the foreground of the earliest listed cell-foreground hit. */
  lemma EarliestCellWins(s: Scene, px: real, py: real, k: nat)
    requires k < |s.objects| && CellHit(s, px, py, s.objects[k])
    requires forall i :: 0 <= i < k ==> !CellHit(s, px, py, s.objects[i])
    requires forall i :: 0 <= i < |s.objects| ==> !MovableHit(s, px, py, s.objects[i])
    ensures Resolve(s, px, py) == Some(Foreground(s.objects[k]))
  {
    var r := Resolve(s, px, py);
    var j :| 0 <= j < |s.objects| && s.objects[j] == r.value.owner && CellHit(s, px, py, s.objects[j]) &&
             (forall i :: 0 <= i < j ==> !CellHit(s, px, py, s.objects[i]));
    assert j == k;
  }

  /** With neither a draggable nor a cell-foreground hit, the click lands on the earliest other hit. */
  lemma EarliestOtherWins(s: Scene, px: real, py: real, k: nat)
    requires k < |s.objects| && OtherHit(s, px, py, s.objects[k])
    requires forall i :: 0 <= i < k ==> !OtherHit(s, px, py, s.objects[i])
    requires forall i :: 0 <= i < |s.objects| ==> !MovableHit(s, px, py, s.objects[i]) && !CellHit(s, px, py, s.objects[i])
    ensures Resolve(s, px, py) == Some(Whole(s.objects[k]))
  {
    var r := Resolve(s, px, py);
    assert r.Some?;
    if r.value.Foreground? {
      assert false;
    } else if IsMovable(s, r.value.id) {
      assert false;
    } else {
      var j :| 0 <= j < |s.objects| && s.objects[j] == r.value.id && OtherHit(s, px, py, s.objects[j]) &&
               (forall i :: 0 <= i < j ==> !OtherHit(s, px, py, s.objects[i]));
      assert j == k;
    }
  }

  /** A normalised click event: undefined coordinates never hit anything. */
  function ResolveEvent(s: Scene, e: Util.NormEvent): (r: Option<Target>)
    ensures e.clientX.None? || e.clientY.None? ==> r.None?
    ensures e.clientX.Some? && e.clientY.Some? ==> r == Resolve(s, e.clientX.value, e.clientY.value)
  {
    if e.clientX.Some? && e.clientY.Some? then Resolve(s, e.clientX.value, e.clientY.value) else None
  }

  /** Time allowed between the two clicks of a double click, in milliseconds. */
  const WAIT_MS: int := 200

  /** Which handler is bound: the first-click one, or the second-click one holding its candidate. */
  datatype Phase = AwaitFirst | AwaitSecond(candidate: Target)

  /** The recogniser: its phase and the pending timer's deadline, if one is pending. */
  datatype Clicks = Clicks(phase: Phase, deadline: Option<int>)

  /** No handler swapped, no timer pending. */
  const Initial: Clicks := Clicks(AwaitFirst, None)

  /** Waiting for a second click always comes with a pending timer. */
  predicate Armed(m: Clicks) {
    m.phase.AwaitSecond? ==> m.deadline.Some?
  }

  /** The timer firing: back to the first-click handler, candidate dropped. */
  function Timeout(m: Clicks): (r: Clicks)
    ensures r.phase == AwaitFirst && r.deadline.None?
  {
    Clicks(AwaitFirst, None)
  }

  /** Lets the clock run to `now`: the pending timer fires when its deadline has passed. */
  function Advance(m: Clicks, now: int): (r: Clicks)
    ensures m.deadline.Some? && m.deadline.value <= now ==> r == Timeout(m)
    ensures m.deadline.None? || now < m.deadline.value ==> r == m
  {
    if m.deadline.Some? && m.deadline.value <= now then Timeout(m) else m
  }

  /**
   * The first-click handler: any pending timer is cancelled; a click that resolves a candidate
   * binds the second-click handler and starts a `WAIT_MS` timer, one that resolves nothing
   * leaves the first-click handler bound.
   */
  function FirstClick(s: Scene, e: Util.NormEvent, now: int): (r: Clicks)
    ensures Armed(r)
    ensures ResolveEvent(s, e).None? ==> r == Initial
    ensures ResolveEvent(s, e).Some? ==>
              r.phase == AwaitSecond(ResolveEvent(s, e).value) && r.deadline == Some(now + WAIT_MS)
  {
    match ResolveEvent(s, e)
    case None => Clicks(AwaitFirst, None)
    case Some(t) => Clicks(AwaitSecond(t), Some(now + WAIT_MS))
  }

  /** What a click did: the recogniser afterwards and the action it invoked, if any. */
  datatype Clicked = Clicked(next: Clicks, invoked: Option<Action>)

  /**
   * The second-click handler: it invokes the candidate's action exactly when the candidate has one
   * and the click resolves to that same target, and rebinds the first-click handler either way.
   * It does not cancel the timer.
   */
  function SecondClick(s: Scene, m: Clicks, candidate: Target, e: Util.NormEvent): (r: Clicked)
    ensures r.next.phase == AwaitFirst && r.next.deadline == m.deadline
    ensures r.invoked.Some? <==> ActionOf(s, candidate).Some? && ResolveEvent(s, e) == Some(candidate)
    ensures r.invoked.Some? ==> r.invoked == ActionOf(s, candidate)
  {
    var same := ActionOf(s, candidate).Some? && ResolveEvent(s, e) == Some(candidate);
    Clicked(Clicks(AwaitFirst, m.deadline), if same then ActionOf(s, candidate) else None)
  }

  /** A click at time `now`: first any due timer fires, then the bound handler runs. */
  function Click(s: Scene, m: Clicks, e: Util.NormEvent, now: int): (r: Clicked)
    ensures Armed(r.next)
    ensures r.invoked.Some? ==>
              && m.phase.AwaitSecond? && (m.deadline.None? || now < m.deadline.value)
              && ResolveEvent(s, e) == Some(m.phase.candidate)
              && r.invoked == ActionOf(s, m.phase.candidate)
    ensures r.next.phase.AwaitSecond? ==>
              r.invoked.None? && ResolveEvent(s, e) == Some(r.next.phase.candidate) && r.next.deadline == Some(now + WAIT_MS)
  {
    var m' := Advance(m, now);
    match m'.phase
    case AwaitFirst => Clicked(FirstClick(s, e, now), None)
    case AwaitSecond(c) => SecondClick(s, m', c, e)
  }

  /** The recogniser is armed from the start, and clicks and timer firings keep it armed. */
  lemma StaysArmed(s: Scene, m: Clicks, e: Util.NormEvent, now: int)
    ensures Armed(Initial)
    ensures Armed(m) ==> Armed(Advance(m, now)) && Armed(Timeout(m))
    ensures Armed(Click(s, m, e, now).next)
  {
  }

  /** A stale timer firing while the first-click handler is bound changes nothing observable. */
  lemma StaleTimerHarmless(s: Scene, m: Clicks, e: Util.NormEvent, now: int, later: int)
    requires m.phase == AwaitFirst && now <= later
    ensures Click(s, Timeout(m), e, later) == Click(s, m, e, later)
  {
  }

  /** Two clicks on the same target with an action, less than `WAIT_MS` apart, invoke the action once. */
  lemma DoubleClickInvokes(s: Scene, m: Clicks, e1: Util.NormEvent, e2: Util.NormEvent, t1: int, t2: int, target: Target)
    requires m.phase == AwaitFirst
    requires ResolveEvent(s, e1) == Some(target) && ResolveEvent(s, e2) == Some(target)
    requires t1 <= t2 < t1 + WAIT_MS
    ensures var c1 := Click(s, m, e1, t1);
      var c2 := Click(s, c1.next, e2, t2);
      && c1.invoked.None?
      && c2.invoked.Some? && c2.invoked == ActionOf(s, target)
      && c2.next.phase == AwaitFirst
  {
  }

  /** A second click that comes `WAIT_MS` or more after the first starts a new double click instead. */
  lemma SlowSecondClickRestarts(s: Scene, m: Clicks, e1: Util.NormEvent, e2: Util.NormEvent, t1: int, t2: int, target: Target)
    requires m.phase == AwaitFirst
    requires ResolveEvent(s, e1) == Some(target) && ResolveEvent(s, e2) == Some(target)
    requires t1 + WAIT_MS <= t2
    ensures var c2 := Click(s, Click(s, m, e1, t1).next, e2, t2);
      c2.invoked.None? && c2.next == Clicks(AwaitSecond(target), Some(t2 + WAIT_MS))
  {
  }

  /** Clicks on two different targets never invoke anything; the second one goes back to waiting for a first click. */
  lemma DifferentTargetsDoNotInvoke(s: Scene, m: Clicks, e1: Util.NormEvent, e2: Util.NormEvent, t1: int, t2: int, target: Target)
    requires m.phase == AwaitFirst
    requires ResolveEvent(s, e1) == Some(target) && ResolveEvent(s, e2) != Some(target)
    requires t1 <= t2 < t1 + WAIT_MS
    ensures var c1 := Click(s, m, e1, t1);
      var c2 := Click(s, c1.next, e2, t2);
      c1.invoked.None? && c2.invoked.None? && c2.next.phase == AwaitFirst
  {
  }

  /** A concrete timeline: clicks at 0 ms and 100 ms on the same target invoke its action, at 0 ms and 250 ms they do not. */
  lemma TimelineScenario(s: Scene, e: Util.NormEvent, target: Target)
    requires ResolveEvent(s, e) == Some(target)
    ensures Click(s, Click(s, Initial, e, 0).next, e, 100).invoked == ActionOf(s, target)
    ensures Click(s, Click(s, Initial, e, 0).next, e, 250).invoked.None?
  {
    DoubleClickInvokes(s, Initial, e, e, 0, 100, target);
  }
}

=== FILE: movable.dfy ===
/**
 * Draggable entities: registration at construction, the top-most hit-test, the drag step
 * (select, promote to the top layer, clamp into the surface), release and batch reset.
 */
module Movables {
  import opened Options
  import opened Seqs
  import opened Sprites
  import opened Scenes
  import Ranks
  import Util

  /**
   * Construction: a fresh entity registered at the end of the registry with rank N (the
   * registry's old length), not selected, remembering its initial position. It is not added to
   * the engine list.
   */
  function NewMovable(s: Scene, image: Image, x: real, y: real, speed: int, scale: Scale, active: bool): (r: Spawned)
    ensures r.id == s.nextId && r.scene.nextId == s.nextId + 1
    ensures r.scene.registry == s.registry + [r.id]
    ensures IsMovable(r.scene, r.id) && Rank(r.scene, r.id) == |s.registry| && !IsSelected(r.scene, r.id)
    ensures r.scene.entities[r.id].kind.mv.initialX == x && r.scene.entities[r.id].kind.mv.initialY == y
    ensures r.scene.entities[r.id].kind.mv.active == active
    ensures r.scene.entities[r.id].sprite == Sprites.New(image, x, y, speed, scale)
    ensures r.scene.objects == s.objects && r.scene.surface == s.surface
    ensures forall id :: id in s.entities && id != r.id ==> id in r.scene.entities && r.scene.entities[id] == s.entities[id]
  {
    var e := Entity(Sprites.New(image, x, y, speed, scale),
                    Movable(MovableFields(x, y, |s.registry|, active, false)));
    Spawned(s.(entities := s.entities[s.nextId := e], registry := s.registry + [s.nextId], nextId := s.nextId + 1),
            s.nextId)
  }

  /** Construction extends the rank permutation from [0, N) to [0, N + 1) and keeps the invariant. */
  lemma NewMovableKeepsValid(s: Scene, image: Image, x: real, y: real, speed: int, scale: Scale, active: bool)
    requires Valid(s)
    ensures var r := NewMovable(s, image, x, y, speed, scale, active);
      && r.id !in s.entities
      && RankSeq(r.scene) == RankSeq(s) + [|s.registry|]
      && Valid(r.scene)
  {
    var r := NewMovable(s, image, x, y, speed, scale, active);
    var s' := r.scene;
    assert r.id !in s.entities;
    forall i | 0 <= i < |s.registry|
      ensures s.registry[i] != r.id
      ensures IsMovable(s', s.registry[i]) && Rank(s', s.registry[i]) == Rank(s, s.registry[i])
      ensures IsSelected(s', s.registry[i]) == IsSelected(s, s.registry[i])
    {
      assert IsMovable(s, s.registry[i]);
    }
    assert RankSeq(s') == RankSeq(s) + [|s.registry|];
    Ranks.AppendKeepsPermutation(RankSeq(s));
    forall id | IsMovable(s', id)
      ensures id in s'.registry
    {
      if id != r.id { assert IsMovable(s, id); }
    }
  }

  /** An active draggable entity whose rectangle contains the pointer. */
  predicate Grabbable(s: Scene, id: Id, px: real, py: real) {
    IsMovable(s, id) && s.entities[id].kind.mv.active && IsIn(s.entities[id].sprite, s.surface, px, py)
  }

  /**
   * The top-most hit among `ids`, scanning in order and replacing the current candidate only by
   * a strictly higher rank: a grabbable entry of maximal rank, the earliest among equals.
   */
  function TopIn(s: Scene, ids: seq<Id>, px: real, py: real): (r: Option<Id>)
    ensures r.Some? ==> r.value in ids && Grabbable(s, r.value, px, py)
    ensures r.None? <==> forall i :: 0 <= i < |ids| ==> !Grabbable(s, ids[i], px, py)
    ensures r.Some? ==> forall i :: 0 <= i < |ids| && Grabbable(s, ids[i], px, py) ==> Rank(s, ids[i]) <= Rank(s, r.value)
    ensures r.Some? ==>
              exists k :: 0 <= k < |ids| && ids[k] == r.value &&
                (forall i :: 0 <= i < k && Grabbable(s, ids[i], px, py) ==> Rank(s, ids[i]) < Rank(s, r.value))
    decreases |ids|
  {
    if |ids| == 0 then None
    else
      var front := ids[..|ids| - 1];
      var last := ids[|ids| - 1];
      var best := TopIn(s, front, px, py);
      assert forall i :: 0 <= i < |front| ==> front[i] == ids[i];
      if Grabbable(s, last, px, py) && (best.None? || Rank(s, best.value) < Rank(s, last)) then
        Some(last)
      else
        best
  }

  /** The registry's top-most hit at a pointer position (undefined when nothing is hit). */
  function TopMost(s: Scene, px: real, py: real): Option<Id> {
    TopIn(s, s.registry, px, py)
  }

  /** Whether `id` is the top-most draggable entity at the pointer. */
  predicate IsOnTopOf(s: Scene, id: Id, px: real, py: real) {
    TopMost(s, px, py) == Some(id)
  }

  /** Under the invariant, the top-most hit is the unique grabbable entity of strictly highest rank. */
  lemma TopMostIsStrictlyHighest(s: Scene, px: real, py: real)
    requires Valid(s)
    ensures var r := TopMost(s, px, py);
      r.Some? ==> forall id :: Grabbable(s, id, px, py) && id != r.value ==> Rank(s, id) < Rank(s, r.value)
  {
    var r := TopMost(s, px, py);
    if r.Some? {
      forall id | Grabbable(s, id, px, py) && id != r.value
        ensures Rank(s, id) < Rank(s, r.value)
      {
        assert id in s.registry;
        var i :| 0 <= i < |s.registry| && s.registry[i] == id;
        var k :| 0 <= k < |s.registry| && s.registry[k] == r.value;
        assert RankSeq(s)[i] != RankSeq(s)[k];
      }
    }
  }

  /** The first selected entry in registry order. */
  function FirstSelected(s: Scene): (r: Option<Id>)
    ensures r.Some? ==> r.value in s.registry && IsSelected(s, r.value)
    ensures r.None? <==> forall i :: 0 <= i < |s.registry| ==> !IsSelected(s, s.registry[i])
    ensures r.Some? ==>
              exists k :: 0 <= k < |s.registry| && s.registry[k] == r.value && (forall i :: 0 <= i < k ==> !IsSelected(s, s.registry[i]))
  {
    match FindFirst(s.registry, id => IsSelected(s, id))
    case None => None
    case Some(k) => Some(s.registry[k])
  }

  /** The selected entry at the lowest registry index is the one chosen. */
  lemma FirstSelectedIsLowest(s: Scene, k: nat)
    requires k < |s.registry| && IsSelected(s, s.registry[k])
    requires forall i :: 0 <= i < k ==> !IsSelected(s, s.registry[i])
    ensures FirstSelected(s) == Some(s.registry[k])
  {
    assert FirstSelected(s).Some?;
    var j :| 0 <= j < |s.registry| && s.registry[j] == FirstSelected(s).value &&
             (forall i :: 0 <= i < j ==> !IsSelected(s, s.registry[i]));
    assert IsSelected(s, s.registry[j]);
    assert j == k;
  }

  /** What a pressed move drags: the selected entity if there is one, else the top-most hit. */
  function DragTarget(s: Scene, px: real, py: real): (r: Option<Id>)
    ensures r.Some? ==> r.value in s.registry && IsMovable(s, r.value)
    ensures FirstSelected(s).Some? ==> r == FirstSelected(s)
    ensures FirstSelected(s).None? ==> r == TopMost(s, px, py)
  {
    match FirstSelected(s)
    case Some(id) => Some(id)
    case None => TopMost(s, px, py)
  }

  /**
   * Keeps an extent inside [0, limit] on one axis: a negative position becomes 1, then one that
   * overflows the far edge is pulled back to `limit - extent`.
   */
  function Clamp(v: real, extent: real, limit: real): (r: real)
    ensures extent <= limit ==> 0.0 <= r && r + extent <= limit
    ensures 0.0 <= v && v + extent <= limit ==> r == v
    ensures v < 0.0 && 1.0 + extent <= limit ==> r == 1.0
    ensures (if v < 0.0 then 1.0 else v) + extent > limit ==> r == limit - extent
  {
    var a := if v < 0.0 then 1.0 else v;
    if a + extent > limit then limit - extent else a
  }

  /**
   * Selects `t` and promotes it to the top layer: every registered entity ranked strictly above
   * it drops by one and `t` takes rank N - 1.
   */
  function Grab(s: Scene, t: Id): (r: Scene)
    requires IsMovable(s, t)
    ensures r.registry == s.registry && r.objects == s.objects && r.nextId == s.nextId && r.surface == s.surface
    ensures r.entities.Keys == s.entities.Keys
    ensures forall id :: id in s.entities ==> r.entities[id].sprite == s.entities[id].sprite
    ensures forall id :: id in s.entities && id != t && !(id in s.registry && s.entities[id].kind.Movable?) ==>
              r.entities[id] == s.entities[id]
    ensures forall id :: id in s.entities && s.entities[id].kind.Movable? ==>
              var m := s.entities[id].kind.mv;
              && r.entities[id].kind.Movable?
              && r.entities[id].kind.mv == m.(selected := r.entities[id].kind.mv.selected, zIndex := r.entities[id].kind.mv.zIndex)
              && (id != t ==> r.entities[id].kind.mv.selected == m.selected)
    ensures r.entities[t].kind.mv.selected && r.entities[t].kind.mv.zIndex == |s.registry| - 1
  {
    var low := Rank(s, t);
    var top := |s.registry| - 1;
    var ents := map id | id in s.entities ::
      var e := s.entities[id];
      if id == t then Entity(e.sprite, Movable(e.kind.mv.(selected := true, zIndex := top)))
      else if id in s.registry && e.kind.Movable? && e.kind.mv.zIndex > low then
        Entity(e.sprite, Movable(e.kind.mv.(zIndex := e.kind.mv.zIndex - 1)))
      else e;
    s.(entities := ents)
  }

  /** The ranks after a grab are the promotion of the grabbed entry's registry position. */
  lemma GrabPromotes(s: Scene, t: Id, k: nat)
    requires Valid(s) && k < |s.registry| && s.registry[k] == t
    ensures RankSeq(Grab(s, t)) == Ranks.Promote(RankSeq(s), k)
    ensures forall id :: id in s.entities ==>
              (IsMovable(Grab(s, t), id) <==> IsMovable(s, id)) &&
              (IsSelected(Grab(s, t), id) <==> id == t || IsSelected(s, id))
  {
    var r := Grab(s, t);
    var p := Ranks.Promote(RankSeq(s), k);
    forall i | 0 <= i < |s.registry|
      ensures RankSeq(r)[i] == p[i]
    {
      var id := s.registry[i];
      assert IsMovable(s, id);
      if i != k {
        assert id != t by { assert s.registry[i] != s.registry[k]; }
      }
    }
  }

  /** Repositions `t` at the pointer (centred, clamped into the surface) through the sentinel update. */
  function MoveTo(s: Scene, t: Id, px: real, py: real): (r: Scene)
    requires t in s.entities
    ensures r.registry == s.registry && r.objects == s.objects && r.nextId == s.nextId && r.surface == s.surface
    ensures t in r.entities && r.entities == s.entities[t := r.entities[t]]
    ensures r.entities[t].kind == s.entities[t].kind
    ensures var sp := s.entities[t].sprite;
      r.entities[t].sprite == Sprites.Update(sp,
        Clamp(px - s.surface.offsetLeft - sp.width / 2.0, sp.width, s.surface.width),
        Clamp(py - s.surface.offsetTop - sp.height / 2.0, sp.height, s.surface.height))
  {
    var e := s.entities[t];
    var nx := Clamp(px - s.surface.offsetLeft - e.sprite.width / 2.0, e.sprite.width, s.surface.width);
    var ny := Clamp(py - s.surface.offsetTop - e.sprite.height / 2.0, e.sprite.height, s.surface.height);
    s.(entities := s.entities[t := Entity(Sprites.Update(e.sprite, nx, ny), e.kind)])
  }

  /** A touch move whose pointer left the surface (edges included as inside) is ignored. */
  predicate TouchOutside(s: Scene, kind: Util.EventType, px: real, py: real) {
    kind == Util.TouchMove &&
    !(px >= s.surface.offsetLeft && px <= s.surface.offsetLeft + s.surface.width &&
      py >= s.surface.offsetTop && py <= s.surface.offsetTop + s.surface.height)
  }

  /**
   * The pointer-move handler: unless it is a touch move off the surface or the pointer is not
   * pressed, the drag target (if any) is selected, promoted and moved under the pointer.
   */
  function OnPointerMove(s: Scene, e: Util.NormEvent): (r: Scene)
    requires e.clientX.Some? && e.clientY.Some?
    ensures TouchOutside(s, e.kind, e.clientX.value, e.clientY.value) || !e.isPushed ==> r == s
    ensures DragTarget(s, e.clientX.value, e.clientY.value).None? ==> r == s
    ensures r.registry == s.registry && r.objects == s.objects && r.nextId == s.nextId && r.surface == s.surface
    ensures r.entities.Keys == s.entities.Keys
  {
    var px := e.clientX.value;
    var py := e.clientY.value;
    if TouchOutside(s, e.kind, px, py) || !e.isPushed then s
    else match DragTarget(s, px, py)
      case None => s
      case Some(t) => MoveTo(Grab(s, t), t, px, py)
  }

  /**
   * A drag leaves the rest of the scene alone: every entity other than the dragged one keeps its
   * sprite, and apart from a registered draggable entity's rank it is unchanged.
   */
  lemma DragLeavesOthersAlone(s: Scene, e: Util.NormEvent, id: Id)
    requires e.clientX.Some? && e.clientY.Some? && id in s.entities
    requires Drags(s, e) ==> id != DragTarget(s, e.clientX.value, e.clientY.value).value
    ensures var r := OnPointerMove(s, e);
      && (!(id in s.registry && s.entities[id].kind.Movable?) ==> r.entities[id] == s.entities[id])
      && (s.entities[id].kind.Movable? ==>
            r.entities[id] == Entity(s.entities[id].sprite, Movable(s.entities[id].kind.mv.(zIndex := r.entities[id].kind.mv.zIndex))))
  {
    if Drags(s, e) {
      var t := DragTarget(s, e.clientX.value, e.clientY.value).value;
      var g := Grab(s, t);
      assert MoveTo(g, t, e.clientX.value, e.clientY.value).entities[id] == g.entities[id];
    }
  }

  /** Whether a move event actually drags something. */
  predicate Drags(s: Scene, e: Util.NormEvent)
    requires e.clientX.Some? && e.clientY.Some?
  {
    !TouchOutside(s, e.kind, e.clientX.value, e.clientY.value) && e.isPushed &&
    DragTarget(s, e.clientX.value, e.clientY.value).Some?
  }

  /** Grabbing keeps the invariant when every selected entity is the grabbed one. */
  lemma GrabKeepsValid(s: Scene, t: Id, k: nat)
    requires Valid(s) && k < |s.registry| && s.registry[k] == t
    requires forall i :: 0 <= i < |s.registry| && IsSelected(s, s.registry[i]) ==> s.registry[i] == t
    ensures Valid(Grab(s, t))
  {
    var g := Grab(s, t);
    GrabPromotes(s, t, k);
    Ranks.PromoteKeepsPermutation(RankSeq(s), k);
    forall i, j | 0 <= i < |g.registry| && 0 <= j < |g.registry| &&
                  IsSelected(g, g.registry[i]) && IsSelected(g, g.registry[j])
      ensures i == j
    {
      assert s.registry[i] == t && s.registry[j] == t;
    }
    forall id | IsMovable(g, id)
      ensures id in g.registry
    {
      assert IsMovable(s, id);
    }
  }

  /** Moving a draggable entity keeps the invariant: only its sprite changes. */
  lemma MoveToKeepsValid(s: Scene, t: Id, px: real, py: real)
    requires Valid(s) && IsMovable(s, t)
    ensures Valid(MoveTo(s, t, px, py))
  {
    RegistryFrame(s, MoveTo(s, t, px, py));
  }

  /**
   * A drag keeps the invariant: the ranks stay a permutation (they are the promotion of the
   * dragged entry), and since the dragged entity is the already-selected one when there is one,
   * at most one entity stays selected.
   */
  lemma DragKeepsValid(s: Scene, e: Util.NormEvent)
    requires Valid(s) && e.clientX.Some? && e.clientY.Some?
    ensures Valid(OnPointerMove(s, e))
  {
    if Drags(s, e) {
      var px, py := e.clientX.value, e.clientY.value;
      var t := DragTarget(s, px, py).value;
      var k :| 0 <= k < |s.registry| && s.registry[k] == t;
      forall i | 0 <= i < |s.registry| && IsSelected(s, s.registry[i])
        ensures s.registry[i] == t
      {
        var f := FindFirst(s.registry, id => IsSelected(s, id));
        assert f.Some?;
        assert IsSelected(s, s.registry[f.value]);
      }
      GrabKeepsValid(s, t, k);
      MoveToKeepsValid(Grab(s, t), t, px, py);
    }
  }

  /**
   * What a drag does to the dragged entity: it is selected, it ranks N - 1 above every other
   * entry, every other entry above its old rank dropped by one and the rest kept their rank.
   */
  lemma DragPromotesTarget(s: Scene, e: Util.NormEvent, k: nat)
    requires Valid(s) && e.clientX.Some? && e.clientY.Some? && Drags(s, e)
    requires k < |s.registry| && s.registry[k] == DragTarget(s, e.clientX.value, e.clientY.value).value
    ensures var r := OnPointerMove(s, e);
      && IsSelected(r, s.registry[k])
      && Rank(r, s.registry[k]) == |s.registry| - 1
      && RankSeq(r) == Ranks.Promote(RankSeq(s), k)
      && (forall i :: 0 <= i < |s.registry| && i != k ==>
            Rank(r, s.registry[i]) == (if Rank(s, s.registry[i]) > Rank(s, s.registry[k])
                                       then Rank(s, s.registry[i]) - 1 else Rank(s, s.registry[i])))
  {
    var px, py := e.clientX.value, e.clientY.value;
    var t := s.registry[k];
    var g := Grab(s, t);
    GrabPromotes(s, t, k);
    Ranks.PromoteKeepsRelativeOrder(RankSeq(s), k);
    var r := MoveTo(g, t, px, py);
    assert RankSeq(r) == RankSeq(g) by {
      forall i | 0 <= i < |s.registry|
        ensures Rank(r, s.registry[i]) == Rank(g, s.registry[i])
      {
      }
    }
  }

  /**
   * Where the dragged entity lands: centred under the pointer and clamped into the surface on
   * each axis, unless the clamped coordinate is exactly 0, which the sentinel turns into "stay".
   * When the entity fits the surface, a non-zero clamped coordinate keeps it fully inside.
   */
  lemma DragClampsIntoSurface(s: Scene, e: Util.NormEvent)
    requires e.clientX.Some? && e.clientY.Some? && Drags(s, e)
    ensures var t := DragTarget(s, e.clientX.value, e.clientY.value).value;
      var before := s.entities[t].sprite;
      var after := OnPointerMove(s, e).entities[t].sprite;
      var nx := Clamp(e.clientX.value - s.surface.offsetLeft - before.width / 2.0, before.width, s.surface.width);
      && (nx != 0.0 ==> after.x == nx)
      && (nx == 0.0 ==> after.x == before.x)
      && (before.width <= s.surface.width && nx != 0.0 ==> 0.0 <= after.x && after.x + after.width <= s.surface.width)
    ensures var t := DragTarget(s, e.clientX.value, e.clientY.value).value;
      var before := s.entities[t].sprite;
      var after := OnPointerMove(s, e).entities[t].sprite;
      var ny := Clamp(e.clientY.value - s.surface.offsetTop - before.height / 2.0, before.height, s.surface.height);
      && (ny != 0.0 ==> after.y == ny)
      && (ny == 0.0 ==> after.y == before.y)
      && (before.height <= s.surface.height && ny != 0.0 ==> 0.0 <= after.y && after.y + after.height <= s.surface.height)
  {
  }

  /** Release (mouse up, touch end, mouse leaving the surface): every registered entity is deselected. */
  function Release(s: Scene): (r: Scene)
    ensures forall i :: 0 <= i < |r.registry| ==> !IsSelected(r, r.registry[i])
    ensures r.registry == s.registry && r.objects == s.objects && r.nextId == s.nextId && r.surface == s.surface
    ensures r.entities.Keys == s.entities.Keys
    ensures forall id :: id in s.entities ==>
              r.entities[id].sprite == s.entities[id].sprite &&
              (IsMovable(r, id) <==> IsMovable(s, id)) && Rank(r, id) == Rank(s, id)
    ensures forall id :: id in s.entities && !(id in s.registry && s.entities[id].kind.Movable?) ==>
              r.entities[id] == s.entities[id]
    ensures forall id :: id in s.registry && id in s.entities && s.entities[id].kind.Movable? ==>
              r.entities[id] == Entity(s.entities[id].sprite, Movable(s.entities[id].kind.mv.(selected := false)))
  {
    var ents := map id | id in s.entities ::
      var e := s.entities[id];
      if id in s.registry && e.kind.Movable? then Entity(e.sprite, Movable(e.kind.mv.(selected := false)))
      else e;
    s.(entities := ents)
  }

  /** Releasing twice is releasing once. */
  lemma ReleaseIdempotent(s: Scene)
    ensures Release(Release(s)) == Release(s)
  {
    var r := Release(s);
    assert Release(r).entities == r.entities;
  }

  /** Release keeps the invariant and leaves nothing selected. */
  lemma ReleaseKeepsValid(s: Scene)
    requires Valid(s)
    ensures Valid(Release(s))
    ensures FirstSelected(Release(s)) == None
  {
    RegistryFrame(s, Release(s));
  }

  /** Updates every listed draggable entity with its initial position, in order. */
  function ResetEach(ents: map<Id, Entity>, ids: seq<Id>): (r: map<Id, Entity>)
    ensures r.Keys == ents.Keys
    decreases |ids|
  {
    if |ids| == 0 then ents
    else
      var id := ids[0];
      var ents' :=
        if id in ents && ents[id].kind.Movable? then
          ents[id := UpdateEntity(ents[id], ents[id].kind.mv.initialX, ents[id].kind.mv.initialY)]
        else ents;
      ResetEach(ents', ids[1..])
  }

  /** With no repeated identity, each listed draggable entity is updated exactly once and the rest are untouched. */
  lemma {:induction false} ResetEachUpdatesOnce(ents: map<Id, Entity>, ids: seq<Id>)
    requires NoDup(ids)
    ensures forall id :: id in ents ==>
      ResetEach(ents, ids)[id] ==
        (if id in ids && ents[id].kind.Movable?
         then UpdateEntity(ents[id], ents[id].kind.mv.initialX, ents[id].kind.mv.initialY)
         else ents[id])
    decreases |ids|
  {
    if |ids| > 0 {
      var id0 := ids[0];
      var ents' :=
        if id0 in ents && ents[id0].kind.Movable? then
          ents[id0 := UpdateEntity(ents[id0], ents[id0].kind.mv.initialX, ents[id0].kind.mv.initialY)]
        else ents;
      assert NoDup(ids[1..]);
      ResetEachUpdatesOnce(ents', ids[1..]);
      forall id | id in ents
        ensures ResetEach(ents, ids)[id] ==
          (if id in ids && ents[id].kind.Movable?
           then UpdateEntity(ents[id], ents[id].kind.mv.initialX, ents[id].kind.mv.initialY)
           else ents[id])
      {
        assert id in ids <==> id == id0 || id in ids[1..];
        if id == id0 {
          assert id0 !in ids[1..];
        }
      }
    }
  }

  /** Batch reset of every registered entity to its initial position, through the sentinel update. */
  function ResetPositions(s: Scene): (r: Scene)
    ensures r.registry == s.registry && r.objects == s.objects && r.nextId == s.nextId && r.surface == s.surface
    ensures r.entities.Keys == s.entities.Keys
  {
    s.(entities := ResetEach(s.entities, s.registry))
  }

  /**
   * After a reset every registered entity is back at its initial position on each axis whose
   * initial coordinate is non-zero (a 0 initial coordinate is the sentinel and keeps the current
   * one); ranks and selection are untouched and the invariant holds.
   */
  lemma ResetRestoresInitial(s: Scene)
    requires Valid(s)
    ensures var r := ResetPositions(s);
      && Valid(r)
      && (forall i :: 0 <= i < |s.registry| ==>
            var id := s.registry[i];
            var mv := s.entities[id].kind.mv;
            && Rank(r, id) == Rank(s, id) && (IsSelected(r, id) <==> IsSelected(s, id))
            && (mv.initialX != 0.0 ==> r.entities[id].sprite.x == mv.initialX)
            && (mv.initialX == 0.0 ==> r.entities[id].sprite.x == s.entities[id].sprite.x)
            && (mv.initialY != 0.0 ==> r.entities[id].sprite.y == mv.initialY)
            && (mv.initialY == 0.0 ==> r.entities[id].sprite.y == s.entities[id].sprite.y))
  {
    var r := ResetPositions(s);
    ResetEachUpdatesOnce(s.entities, s.registry);
    forall i | 0 <= i < |s.registry|
      ensures IsMovable(s, s.registry[i])
    {
    }
    RegistryFrame(s, r);
  }
}

=== FILE: options.dfy ===
/** The "maybe absent" value used wherever the source relies on `undefined`. */
module Options {

  datatype Option<+T> = None | Some(value: T)
}

/** Generic sequence helpers shared by the registry, the engine list and the compositor. */
module Seqs {
  import opened Options

  /** No element occurs twice. */
  predicate NoDup<T(==)>(xs: seq<T>) {
    forall i, j :: 0 <= i < j < |xs| ==> xs[i] != xs[j]
  }

  /** The elements of `xs` satisfying `p`, in their original relative order. */
  function Filter<T(==)>(xs: seq<T>, p: T -> bool): (r: seq<T>)
    ensures |r| <= |xs|
    ensures forall i :: 0 <= i < |r| ==> p(r[i]) && r[i] in xs
    ensures forall i :: 0 <= i < |xs| && p(xs[i]) ==> xs[i] in r
  {
    if |xs| == 0 then []
    else (if p(xs[0]) then [xs[0]] else []) + Filter(xs[1..], p)
  }

  /** The index of the first element satisfying `p`, if any (a first-match scan). */
  function FindFirst<T>(xs: seq<T>, p: T -> bool): (r: Option<nat>)
    ensures r.Some? ==> r.value < |xs| && p(xs[r.value])
    ensures r.Some? ==> forall i :: 0 <= i < r.value ==> !p(xs[i])
    ensures r.None? <==> forall i :: 0 <= i < |xs| ==> !p(xs[i])
  {
    if |xs| == 0 then None
    else if p(xs[0]) then Some(0)
    else match FindFirst(xs[1..], p)
      case None => None
      case Some(i) => Some(i + 1)
  }

  /** `Array.prototype.indexOf`: the first index of `x`, or -1 when `x` is absent. */
  function IndexOf<T(==)>(xs: seq<T>, x: T): (r: int)
    ensures -1 <= r < |xs|
    ensures r == -1 <==> x !in xs
    ensures 0 <= r ==> xs[r] == x && x !in xs[..r]
  {
    if |xs| == 0 then -1
    else if xs[0] == x then 0
    else
      var k := IndexOf(xs[1..], x);
      assert k >= 0 ==> xs[..k + 1] == [xs[0]] + xs[1..][..k];
      if k == -1 then -1 else k + 1
  }
}

=== FILE: ranks.dfy ===
/**
 * Layering ranks ("z_index") of the draggable registry, listed in registry order. They must
 * form a dense permutation of [0, N); a drag promotes one entry to the top.
 */
module Ranks {

  /** Every rank lies in [0, N) and no two entries share one. */
  predicate IsPermutation(r: seq<int>) {
    && (forall i :: 0 <= i < |r| ==> 0 <= r[i] < |r|)
    && (forall i, j :: 0 <= i < |r| && 0 <= j < |r| && i != j ==> r[i] != r[j])
  }

  /**
   * Promotion of entry `k`: every rank strictly above `k`'s old rank drops by one and `k`
   * takes the top rank N - 1.
   */
  function Promote(r: seq<int>, k: nat): (p: seq<int>)
    requires k < |r|
    ensures |p| == |r|
  {
    seq(|r|, i requires 0 <= i < |r| => if i == k then |r| - 1 else if r[i] > r[k] then r[i] - 1 else r[i])
  }

  /** Promotion keeps the ranks a permutation of [0, N). */
  lemma PromoteKeepsPermutation(r: seq<int>, k: nat)
    requires k < |r| && IsPermutation(r)
    ensures IsPermutation(Promote(r, k))
  {
    var p := Promote(r, k);
    forall i | 0 <= i < |r| && i != k
      ensures 0 <= p[i] < |r| - 1
    {
      assert r[i] != r[k];
    }
    forall i, j | 0 <= i < |r| && 0 <= j < |r| && i != j
      ensures p[i] != p[j]
    {
      if i != k && j != k {
        assert r[i] != r[j] && r[i] != r[k] && r[j] != r[k];
      }
    }
  }

  /** After promotion the promoted entry is strictly above every other entry. */
  lemma PromotedIsTop(r: seq<int>, k: nat)
    requires k < |r| && IsPermutation(r)
    ensures forall i :: 0 <= i < |r| && i != k ==> Promote(r, k)[i] < Promote(r, k)[k]
  {
    PromoteKeepsPermutation(r, k);
  }

  /**
   * Promotion lowers by one exactly the entries that were above the promoted one, leaves the
   * others alone, and keeps the relative order of every pair not involving the promoted entry.
   */
  lemma PromoteKeepsRelativeOrder(r: seq<int>, k: nat)
    requires k < |r| && IsPermutation(r)
    ensures forall i :: 0 <= i < |r| && i != k ==>
              Promote(r, k)[i] == (if r[i] > r[k] then r[i] - 1 else r[i])
    ensures forall i, j :: 0 <= i < |r| && 0 <= j < |r| && i != k && j != k ==>
              (r[i] < r[j] <==> Promote(r, k)[i] < Promote(r, k)[j])
  {
    var p := Promote(r, k);
    forall i, j | 0 <= i < |r| && 0 <= j < |r| && i != k && j != k
      ensures r[i] < r[j] <==> p[i] < p[j]
    {
      assert r[i] != r[k] && r[j] != r[k];
    }
  }

  /** Registering a new entry with rank N extends a permutation of [0, N) to one of [0, N + 1). */
  lemma AppendKeepsPermutation(r: seq<int>)
    requires IsPermutation(r)
    ensures IsPermutation(r + [|r|])
  {
  }

  /** The three-entry scenario: promoting the rank-0 entry of [0, 1, 2] yields [2, 0, 1]. */
  lemma PromoteScenario()
    ensures Promote([0, 1, 2], 0) == [2, 0, 1]
  {
  }

  /** The ranks that occur among the first `n` entries. */
  function Values(r: seq<int>, n: nat): set<int>
    requires n <= |r|
  {
    set i | 0 <= i < n :: r[i]
  }

  /** The integers in [0, n). */
  function Below(n: nat): (b: set<int>)
    ensures forall v :: v in b <==> 0 <= v < n
    ensures |b| == n
  {
    if n == 0 then {} else Below(n - 1) + {n - 1}
  }

  lemma {:induction false} DistinctValuesSize(r: seq<int>, n: nat)
    requires n <= |r| && IsPermutation(r)
    ensures |Values(r, n)| == n
  {
    if n > 0 {
      DistinctValuesSize(r, n - 1);
      assert Values(r, n) == Values(r, n - 1) + {r[n - 1]};
      assert r[n - 1] !in Values(r, n - 1);
    }
  }

  /** A subset of a finite set with the same size is the whole set. */
  lemma SubsetSameSize(a: set<int>, b: set<int>)
    requires a <= b && |a| == |b|
    ensures a == b
  {
    assert |b - a| == |b| - |a|;
  }

  /** No gaps: every rank in [0, N) is held by some entry. */
  lemma PermutationIsDense(r: seq<int>)
    requires IsPermutation(r)
    ensures forall v :: 0 <= v < |r| ==> v in r
  {
    DistinctValuesSize(r, |r|);
    assert Values(r, |r|) <= Below(|r|);
    SubsetSameSize(Values(r, |r|), Below(|r|));
    forall v | 0 <= v < |r|
      ensures v in r
    {
      assert v in Below(|r|);
      assert v in Values(r, |r|);
    }
  }
}

=== FILE: scene.dfy ===
/**
 * The shared state of the sprite layer: every entity keyed by identity, the process-wide
 * registry of draggable entities (in construction order) and the engine's list of live objects.
 */
module Scenes {
  import opened Options
  import opened Seqs
  import opened Canvas
  import opened Sprites
  import Cells
  import Ranks

  /** Object identity. */
  type Id = nat

  /** What a draggable entity adds to its sprite. */
  datatype MovableFields = MovableFields(
    initialX: real, initialY: real, // position restored by a reset
    zIndex: int,                    // layering rank
    active: bool,                   // may be grabbed
    selected: bool)                 // currently being dragged

  /** The class of an entity, as a tag instead of a class test. */
  datatype Kind = Plain | Movable(mv: MovableFields) | Cell(part: Cells.CellPart)

  datatype Entity = Entity(sprite: Sprite, kind: Kind)

  /** What a click can land on: an entity itself, or the foreground sprite a cell owns. */
  datatype Target = Whole(id: Id) | Foreground(owner: Id)

  datatype Scene = Scene(
    surface: Surface,
    entities: map<Id, Entity>,
    registry: seq<Id>,  // every draggable entity, in construction order
    objects: seq<Id>,   // the engine's list: what is updated and painted each frame
    nextId: nat)        // identity of the next entity built

  predicate IsMovable(s: Scene, id: Id) {
    id in s.entities && s.entities[id].kind.Movable?
  }

  predicate IsCell(s: Scene, id: Id) {
    id in s.entities && s.entities[id].kind.Cell?
  }

  /** The layering rank of a draggable entity (0 for anything else). */
  function Rank(s: Scene, id: Id): int {
    if IsMovable(s, id) then s.entities[id].kind.mv.zIndex else 0
  }

  predicate IsSelected(s: Scene, id: Id) {
    IsMovable(s, id) && s.entities[id].kind.mv.selected
  }

  /** The ranks of the registry, in registry order. */
  function RankSeq(s: Scene): (r: seq<int>)
    ensures |r| == |s.registry|
    ensures forall i :: 0 <= i < |s.registry| ==> r[i] == Rank(s, s.registry[i])
  {
    seq(|s.registry|, i requires 0 <= i < |s.registry| => Rank(s, s.registry[i]))
  }

  /** At most one registry entry is selected. */
  ghost predicate AtMostOneSelected(s: Scene) {
    forall i, j ::
      0 <= i < |s.registry| && 0 <= j < |s.registry| &&
      IsSelected(s, s.registry[i]) && IsSelected(s, s.registry[j])
      ==> i == j
  }

  /** The registry lists exactly the draggable entities, each once. */
  ghost predicate RegistryExact(s: Scene) {
    && (forall i :: 0 <= i < |s.registry| ==> IsMovable(s, s.registry[i]))
    && NoDup(s.registry)
    && (forall id :: IsMovable(s, id) ==> id in s.registry)
  }

  /** Every identity in use is below `nextId`, and the engine list names only existing entities. */
  ghost predicate IdsKnown(s: Scene) {
    && (forall id :: id in s.entities ==> id < s.nextId)
    && (forall i :: 0 <= i < |s.objects| ==> s.objects[i] in s.entities)
  }

  /** The invariant every operation of the layer maintains. */
  ghost predicate Valid(s: Scene) {
    && IdsKnown(s)
    && RegistryExact(s)
    && Ranks.IsPermutation(RankSeq(s))
    && AtMostOneSelected(s)
  }

  /** The empty scene on a given surface. */
  function Empty(surface: Surface): (r: Scene)
    ensures Valid(r)
    ensures r.entities == map[] && r.registry == [] && r.objects == []
  {
    Scene(surface, map[], [], [], 0)
  }

  /** The sprite a target denotes, if it exists. */
  function SpriteOf(s: Scene, t: Target): Option<Sprite> {
    match t
    case Whole(id) => if id in s.entities then Some(s.entities[id].sprite) else None
    case Foreground(owner) =>
      if IsCell(s, owner) then s.entities[owner].kind.part.fg else None
  }

  /** The double-click action of a target. */
  function ActionOf(s: Scene, t: Target): Option<Action> {
    match SpriteOf(s, t)
    case None => None
    case Some(sp) => sp.onDoubleClick
  }

  /** Whether the target's sprite contains the pointer position. */
  predicate Contains(s: Scene, t: Target, px: real, py: real) {
    SpriteOf(s, t).Some? && IsIn(SpriteOf(s, t).value, s.surface, px, py)
  }

  /**
   * An entity's update, dispatched on its class: a cell also moves its foreground; anything
   * else is a plain sprite update.
   */
  function UpdateEntity(e: Entity, x: real, y: real): (r: Entity)
    ensures r.sprite == Sprites.Update(e.sprite, x, y)
    ensures !e.kind.Cell? ==> r.kind == e.kind
    ensures e.kind.Cell? ==> r.kind.Cell? && r.kind.part == Cells.Update(Cells.Cell(e.sprite, e.kind.part), x, y).part
  {
    match e.kind
    case Cell(part) =>
      var c := Cells.Update(Cells.Cell(e.sprite, part), x, y);
      Entity(c.bg, Cell(c.part))
    case _ => Entity(Sprites.Update(e.sprite, x, y), e.kind)
  }

  /** The scene after an entity is built, with the identity it received. */
  datatype Spawned = Spawned(scene: Scene, id: Id)

  /** Builds a non-draggable entity under the next identity; it is not yet in the engine list. */
  function Spawn(s: Scene, e: Entity): (r: Spawned)
    requires !e.kind.Movable?
    ensures r.id == s.nextId && r.scene.nextId == s.nextId + 1
    ensures r.scene.entities == s.entities[r.id := e]
    ensures r.scene.registry == s.registry && r.scene.objects == s.objects
    ensures r.scene.surface == s.surface
  {
    Spawned(s.(entities := s.entities[s.nextId := e], nextId := s.nextId + 1), s.nextId)
  }

  /** Building a non-draggable entity uses a fresh identity and keeps the invariant. */
  lemma SpawnKeepsValid(s: Scene, e: Entity)
    requires Valid(s) && !e.kind.Movable?
    ensures Spawn(s, e).id !in s.entities
    ensures Valid(Spawn(s, e).scene)
  {
    var s' := Spawn(s, e).scene;
    assert s.nextId !in s.entities;
    assert forall id :: IsMovable(s', id) ==> IsMovable(s, id);
    forall i | 0 <= i < |s.registry|
      ensures IsMovable(s', s.registry[i]) && Rank(s', s.registry[i]) == Rank(s, s.registry[i])
      ensures IsSelected(s', s.registry[i]) == IsSelected(s, s.registry[i])
    {
      assert IsMovable(s, s.registry[i]);
    }
    assert RankSeq(s') == RankSeq(s);
  }

  /**
   * A scene with the same registry and identities whose registered entities keep their class
   * and rank, and whose selection can only have shrunk, inherits the invariant.
   */
  lemma RegistryFrame(s: Scene, s': Scene)
    requires Valid(s)
    requires s'.registry == s.registry && s'.nextId == s.nextId
    requires s'.entities.Keys == s.entities.Keys
    requires forall i :: 0 <= i < |s'.objects| ==> s'.objects[i] in s'.entities
    requires forall id :: id in s.entities ==> (IsMovable(s', id) <==> IsMovable(s, id))
    requires forall i :: 0 <= i < |s.registry| ==> Rank(s', s.registry[i]) == Rank(s, s.registry[i])
    requires forall i :: 0 <= i < |s.registry| ==> IsSelected(s', s.registry[i]) ==> IsSelected(s, s.registry[i])
    ensures RankSeq(s') == RankSeq(s)
    ensures Valid(s')
  {
    assert RankSeq(s') == RankSeq(s);
    forall id | IsMovable(s', id)
      ensures id in s'.registry
    {
      assert IsMovable(s, id);
    }
  }
}

=== FILE: sprite.dfy ===
/** A drawable unit: position, size, frame animation and an optional double-click action. */
module Sprites {
  import opened Options
  import opened Canvas

  /** Opaque handle of a double-click callback; invoking it is an observable output. */
  type Action = nat

  /** A sprite's scale; the source rectangle of a blit divides by it, so it is never zero. */
  type Scale = r: real | r != 0.0 witness 1.0

  /** A loaded (or still loading) bitmap: the size of ONE animation frame, the frame count and the loaded flag. */
  datatype Image = Image(width: real, height: real, frames: int, loaded: bool)

  datatype Sprite = Sprite(
    x: real, y: real,             // top-left corner
    endX: real, endY: real,       // bottom-right corner, recomputed by Update
    sideX: real, sideY: real,     // side lengths fixed at construction
    width: real, height: real,    // image size times scale
    image: Image,
    frames: int, currentFrame: int,
    speed: int, tick: int,        // updates per animation frame, updates since the last frame change
    scale: Scale,
    onDoubleClick: Option<Action>)

  /** The derived bottom-right corner agrees with position and size. */
  predicate BoundsAgree(sp: Sprite) {
    sp.endX == sp.x + sp.width && sp.endY == sp.y + sp.height
  }

  /** The current frame indexes an existing frame of the image. */
  predicate FrameInRange(sp: Sprite) {
    0 <= sp.currentFrame < sp.frames
  }

  /** Construction: geometry from the image size times the scale, animation at its start. */
  function New(image: Image, x: real, y: real, speed: int, scale: Scale): (r: Sprite)
    ensures r.x == x && r.y == y && r.speed == speed && r.scale == scale && r.image == image
    ensures r.width == image.width * scale && r.height == image.height * scale
    ensures BoundsAgree(r)
    ensures r.sideX == r.width && r.sideY == r.height
    ensures r.frames == image.frames && r.currentFrame == 0 && r.tick == 0
    ensures image.frames >= 1 ==> FrameInRange(r)
    ensures r.onDoubleClick == None
  {
    var w := image.width * scale;
    var h := image.height * scale;
    Sprite(x, y, x + w, y + h, (x + w) - x, (y + h) - y, w, h, image,
           image.frames, 0, speed, 0, scale, None)
  }

  /** Attaches (or removes) the double-click action. */
  function WithAction(sp: Sprite, action: Option<Action>): (r: Sprite)
    ensures r.onDoubleClick == action
    ensures r.(onDoubleClick := sp.onDoubleClick) == sp
  {
    sp.(onDoubleClick := action)
  }

  /**
   * One update. A zero coordinate is the "keep this coordinate" sentinel, so a sprite can never
   * be moved to 0 through this call. The bounds are recomputed, the tick counter is incremented
   * and, for multi-frame images, the frame advances (wrapping to 0) on the update where the
   * counter equals `speed`, which also resets the counter.
   */
  function Update(sp: Sprite, x: real, y: real): (r: Sprite)
    ensures x != 0.0 ==> r.x == x
    ensures x == 0.0 ==> r.x == sp.x
    ensures y != 0.0 ==> r.y == y
    ensures y == 0.0 ==> r.y == sp.y
    ensures BoundsAgree(r)
    ensures sp.frames <= 1 ==> r.currentFrame == sp.currentFrame && r.tick == sp.tick + 1
    ensures sp.frames > 1 && sp.tick + 1 == sp.speed ==> r.tick == 0
    ensures sp.frames > 1 && sp.tick + 1 == sp.speed && FrameInRange(sp) ==>
              r.currentFrame == (sp.currentFrame + 1) % sp.frames
    ensures sp.frames > 1 && sp.tick + 1 != sp.speed ==>
              r.currentFrame == sp.currentFrame && r.tick == sp.tick + 1
    ensures FrameInRange(sp) ==> FrameInRange(r)
    // nothing but position, bounds and animation state changes
    ensures r == sp.(x := r.x, y := r.y, endX := r.endX, endY := r.endY,
                     currentFrame := r.currentFrame, tick := r.tick)
  {
    var nx := if x != 0.0 then x else sp.x;
    var ny := if y != 0.0 then y else sp.y;
    var t := sp.tick + 1;
    var moved := sp.(x := nx, y := ny, endX := nx + sp.width, endY := ny + sp.height, tick := t);
    if sp.frames > 1 && t == sp.speed then
      var f := sp.currentFrame + 1;
      moved.(tick := 0, currentFrame := if f >= sp.frames then 0 else f)
    else
      moved
  }

  /** `count` consecutive frame-clock updates, each with the (0, 0) "keep position" arguments. */
  function Ticks(sp: Sprite, count: nat): Sprite
    decreases count
  {
    if count == 0 then sp else Ticks(Update(sp, 0.0, 0.0), count - 1)
  }

  /**
   * Once the tick counter has passed `speed` (a cell is built with speed 0 and tick 0, so the
   * first update already passes it), the counter only grows and the frame never changes again.
   */
  lemma {:induction false} FrameFrozenPastSpeed(sp: Sprite, count: nat)
    requires sp.speed <= sp.tick
    ensures Ticks(sp, count).currentFrame == sp.currentFrame
    ensures Ticks(sp, count).tick == sp.tick + count
    ensures Ticks(sp, count).x == sp.x && Ticks(sp, count).y == sp.y
    decreases count
  {
    if count > 0 {
      var next := Update(sp, 0.0, 0.0);
      FrameFrozenPastSpeed(next, count - 1);
    }
  }

  /**
   * With a multi-frame image and the counter below `speed`, the frame stays put for the next
   * `speed - tick - 1` updates and advances by exactly one (modulo the frame count) on the
   * `speed - tick`-th, which also resets the counter to 0.
   */
  lemma {:induction false} FrameAdvancesOncePerPeriod(sp: Sprite, count: nat)
    requires sp.frames > 1 && FrameInRange(sp)
    requires 0 <= sp.tick < sp.speed
    requires count <= sp.speed - sp.tick
    ensures count < sp.speed - sp.tick ==>
              Ticks(sp, count).currentFrame == sp.currentFrame && Ticks(sp, count).tick == sp.tick + count
    ensures count == sp.speed - sp.tick ==>
              Ticks(sp, count).currentFrame == (sp.currentFrame + 1) % sp.frames && Ticks(sp, count).tick == 0
    decreases count
  {
    if count > 0 {
      var next := Update(sp, 0.0, 0.0);
      if sp.tick + 1 == sp.speed {
        assert Ticks(next, 0) == next;
      } else {
        FrameAdvancesOncePerPeriod(next, count - 1);
      }
    }
  }

  /**
   * Pointer containment: the half-open rectangle [x, x + width) x [y, y + height), shifted by
   * the surface's page offset.
   */
  predicate IsIn(sp: Sprite, c: Surface, px: real, py: real) {
    && px >= sp.x + c.offsetLeft && py >= sp.y + c.offsetTop
    && px < sp.x + sp.width + c.offsetLeft && py < sp.y + sp.height + c.offsetTop
  }

  /** Half-openness: the right and bottom edges lie outside, the top-left corner inside. */
  lemma HalfOpenEdges(sp: Sprite, c: Surface, py: real)
    requires sp.width > 0.0 && sp.height > 0.0
    requires sp.y + c.offsetTop <= py < sp.y + sp.height + c.offsetTop
    ensures IsIn(sp, c, sp.x + c.offsetLeft, py)
    ensures !IsIn(sp, c, sp.x + sp.width + c.offsetLeft, py)
    ensures !IsIn(sp, c, sp.x + c.offsetLeft, sp.y + sp.height + c.offsetTop)
  {
  }

  /** One blit: a sub-rectangle of the bitmap copied to a destination rectangle. */
  datatype Blit = Blit(srcX: real, srcY: real, srcW: real, srcH: real,
                       dstX: real, dstY: real, dstW: real, dstH: real)

  /**
   * Drawing: nothing while the bitmap is not loaded; otherwise the current frame's sub-rectangle
   * (frame index times the unscaled frame width) painted over the sprite's rectangle.
   */
  function Draw(sp: Sprite): (r: Option<Blit>)
    ensures r.None? <==> !sp.image.loaded
    ensures r.Some? ==> r.value.dstX == sp.x && r.value.dstY == sp.y
    ensures r.Some? ==> r.value.dstW == sp.width && r.value.dstH == sp.height
    ensures r.Some? ==> r.value.srcY == 0.0
  {
    if !sp.image.loaded then None
    else Some(Blit(sp.currentFrame as real * sp.width / sp.scale, 0.0,
                   sp.width / sp.scale, sp.height / sp.scale,
                   sp.x, sp.y, sp.width, sp.height))
  }

  /**
   * For a sprite whose size still comes from its image, the source rectangle is exactly the
   * current frame of the image: frame index times the frame width, one frame wide.
   */
  lemma DrawSelectsCurrentFrame(sp: Sprite)
    requires sp.image.loaded
    requires sp.width == sp.image.width * sp.scale && sp.height == sp.image.height * sp.scale
    ensures Draw(sp).Some?
    ensures Draw(sp).value.srcX == sp.currentFrame as real * sp.image.width
    ensures Draw(sp).value.srcW == sp.image.width && Draw(sp).value.srcH == sp.image.height
  {
    var b := Draw(sp).value;
    assert sp.width / sp.scale == sp.image.width;
    assert sp.currentFrame as real * sp.width == (sp.currentFrame as real * sp.image.width) * sp.scale;
  }
}

=== FILE: structure.dfy ===
/**
 * Grid construction: a `cols` by `lines` grid of cells laid out column by column, each cell
 * built at its slot and appended to the engine list.
 */
module Structure {
  import opened Sprites
  import opened Scenes
  import Cells
  import Engine

  /** The slot size along one axis: the total length divided by the count (unused when the count is 0). */
  function Side(total: real, count: int): real {
    if count == 0 then 0.0 else total / count as real
  }

  /** The entity of a freshly built cell at (x, y). */
  function CellEntity(image: Image, x: real, y: real, scale: Scale): (e: Entity)
    ensures e.kind.Cell? && e.kind.part.fg.None?
    ensures e.sprite.x == x && e.sprite.y == y
    ensures e.sprite.width == image.width * scale && e.sprite.height == image.height * scale
  {
    var c := Cells.New(image, x, y, scale);
    Entity(c.bg, Cell(c.part))
  }

  /** The slots of one column at abscissa `x`, top to bottom. */
  function Column(x: real, yPosition: real, sideY: real, lines: nat): (r: seq<(real, real)>)
    ensures |r| == lines
    ensures forall j :: 0 <= j < lines ==> r[j].0 == x && r[j].1 == yPosition + j as real * sideY
  {
    seq(lines, j requires 0 <= j < lines => (x, yPosition + j as real * sideY))
  }

  /** The slots of the first `cols` columns, column after column. */
  function Layout(xPosition: real, yPosition: real, sideX: real, sideY: real, lines: nat, cols: nat): (r: seq<(real, real)>)
    ensures |r| == cols * lines
  {
    if cols == 0 then []
    else Layout(xPosition, yPosition, sideX, sideY, lines, cols - 1)
         + Column(xPosition + (cols - 1) as real * sideX, yPosition, sideY, lines)
  }

  /** Column-major order: slot `i * lines + j` is column `i`, row `j`. */
  lemma {:induction false} LayoutColumnMajor(xPosition: real, yPosition: real, sideX: real, sideY: real, lines: nat, cols: nat, i: nat, j: nat)
    requires i < cols && j < lines
    ensures i * lines + j < |Layout(xPosition, yPosition, sideX, sideY, lines, cols)|
    ensures Layout(xPosition, yPosition, sideX, sideY, lines, cols)[i * lines + j].0 == xPosition + i as real * sideX
    ensures Layout(xPosition, yPosition, sideX, sideY, lines, cols)[i * lines + j].1 == yPosition + j as real * sideY
  {
    var prev := Layout(xPosition, yPosition, sideX, sideY, lines, cols - 1);
    var last := Column(xPosition + (cols - 1) as real * sideX, yPosition, sideY, lines);
    IndexBelow(i, j, lines, cols);
    if i == cols - 1 {
      assert |prev| == i * lines;
      assert (prev + last)[i * lines + j] == last[j];
    } else {
      IndexBelow(i, j, lines, cols - 1);
      LayoutColumnMajor(xPosition, yPosition, sideX, sideY, lines, cols - 1, i, j);
      assert (prev + last)[i * lines + j] == prev[i * lines + j];
    }
  }

  /** The slot index of column `i`, row `j` lies below the number of slots of the first `cols` columns. */
  lemma IndexBelow(i: nat, j: nat, lines: nat, cols: nat)
    requires i < cols && j < lines
    ensures i * lines + j < cols * lines
  {
    assert (i + 1) * lines == i * lines + lines;
    MulMonotone(i + 1, cols, lines);
  }

  lemma MulMonotone(a: nat, b: nat, n: nat)
    requires a <= b
    ensures a * n <= b * n
  {
  }

  /** The cell listed for column `i`, row `j` of a grid is a fresh cell built at that slot. */
  ghost predicate CellAt(r: Scene, cells: seq<Id>, image: Image, scale: Scale,
                         xPosition: real, yPosition: real, sideX: real, sideY: real, lines: int, i: int, j: int) {
    && 0 <= i * lines + j < |cells|
    && cells[i * lines + j] in r.entities
    && r.entities[cells[i * lines + j]] == CellEntity(image, xPosition + i as real * sideX, yPosition + j as real * sideY, scale)
  }

  /**
   * What the construction has produced so far: `cells` are the next fresh identities, each built
   * at its slot of `slots`, appended to the engine list in the same order, and nothing else changed.
   */
  ghost predicate Built(s: Scene, r: Scene, cells: seq<Id>, image: Image, scale: Scale, slots: seq<(real, real)>) {
    && |cells| == |slots|
    && (forall k :: 0 <= k < |cells| ==> cells[k] == s.nextId + k)
    && (forall k :: 0 <= k < |cells| ==>
          cells[k] in r.entities && r.entities[cells[k]] == CellEntity(image, slots[k].0, slots[k].1, scale))
    && r.objects == s.objects + cells
    && r.registry == s.registry && r.surface == s.surface && r.nextId == s.nextId + |cells|
    && (forall id :: id in s.entities && id < s.nextId ==> id in r.entities && r.entities[id] == s.entities[id])
    && (Valid(s) ==> Valid(r))
  }

  /** A finished construction holds, for each column and row, the cell built at its slot. */
  lemma BuiltGrid(s: Scene, r: Scene, cells: seq<Id>, image: Image, scale: Scale,
                  xPosition: real, yPosition: real, sideX: real, sideY: real, lines: nat, cols: nat, i: nat, j: nat)
    requires Built(s, r, cells, image, scale, Layout(xPosition, yPosition, sideX, sideY, lines, cols))
    requires i < cols && j < lines
    ensures CellAt(r, cells, image, scale, xPosition, yPosition, sideX, sideY, lines, i, j)
  {
    LayoutColumnMajor(xPosition, yPosition, sideX, sideY, lines, cols, i, j);
  }

  /** Builds one more cell at (x, y) and appends it to the engine list. */
  method AddCell(s: Scene, r0: Scene, cells0: seq<Id>, image: Image, scale: Scale, ghost slots: seq<(real, real)>, x: real, y: real)
    returns (r: Scene, cells: seq<Id>)
    requires Built(s, r0, cells0, image, scale, slots)
    ensures Built(s, r, cells, image, scale, slots + [(x, y)])
    ensures |cells| == |cells0| + 1
  {
    var e := CellEntity(image, x, y, scale);
    var sp := Spawn(r0, e);
    r := Engine.AddObjects(sp.scene, [sp.id]);
    cells := cells0 + [sp.id];
    if Valid(s) {
      SpawnKeepsValid(r0, e);
      Engine.AddKeepsValid(sp.scene, [sp.id]);
    }
  }

  /** The inner loop: builds `lines` cells at abscissa `x`, top to bottom. */
  method BuildColumn(s: Scene, r0: Scene, cells0: seq<Id>, image: Image, scale: Scale, ghost done: seq<(real, real)>,
                     x: real, yPosition: real, sideY: real, lines: int)
    returns (r: Scene, cells: seq<Id>)
    requires Built(s, r0, cells0, image, scale, done)
    ensures Built(s, r, cells, image, scale, done + Column(x, yPosition, sideY, if lines > 0 then lines else 0))
  {
    ghost var column := Column(x, yPosition, sideY, if lines > 0 then lines else 0);
    r, cells := r0, cells0;
    var y := yPosition;
    var j := 0;
    while j < lines
      invariant 0 <= j <= |column|
      invariant y == yPosition + j as real * sideY
      invariant Built(s, r, cells, image, scale, done + column[..j])
    {
      assert column[j].0 == x && column[j].1 == y;
      assert column[j] == (x, y);
      assert column[..j + 1] == column[..j] + [column[j]];
      r, cells := AddCell(s, r, cells, image, scale, done + column[..j], x, y);
      assert done + column[..j] + [(x, y)] == done + column[..j + 1];
      y := y + sideY;
      j := j + 1;
    }
    assert column[..j] == column;
  }

  /** One step of the outer loop: column `i` at abscissa `x` extends the layout by one column. */
  method NextColumn(s: Scene, r0: Scene, cells0: seq<Id>, image: Image, scale: Scale,
                    xPosition: real, yPosition: real, sideX: real, sideY: real, lines: int, i: nat, x: real)
    returns (r: Scene, cells: seq<Id>)
    requires x == xPosition + i as real * sideX
    requires Built(s, r0, cells0, image, scale, Layout(xPosition, yPosition, sideX, sideY, if lines > 0 then lines else 0, i))
    ensures Built(s, r, cells, image, scale, Layout(xPosition, yPosition, sideX, sideY, if lines > 0 then lines else 0, i + 1))
  {
    ghost var rows: nat := if lines > 0 then lines else 0;
    r, cells := BuildColumn(s, r0, cells0, image, scale, Layout(xPosition, yPosition, sideX, sideY, rows, i), x, yPosition, sideY, lines);
  }

  /** Nothing built yet. */
  lemma BuiltNothing(s: Scene, image: Image, scale: Scale, xPosition: real, yPosition: real, sideX: real, sideY: real, lines: nat)
    ensures Built(s, s, [], image, scale, Layout(xPosition, yPosition, sideX, sideY, lines, 0))
  {
  }

  /**
   * `drawGrid`: builds `cols * lines` cells column by column, the cell of column `i` and row `j`
   * at (xPosition + i * width / cols, yPosition + j * height / lines) and sized by its image and
   * scale; every cell is appended to the engine list in the order returned. Negative counts build
   * nothing.
   */
  method DrawGrid(s: Scene, xPosition: real, yPosition: real, width: real, height: real, lines: int, cols: int, image: Image, scale: Scale)
    returns (r: Scene, cells: seq<Id>)
    ensures |cells| == (if cols > 0 then cols else 0) * (if lines > 0 then lines else 0)
    ensures forall i, j :: 0 <= i < cols && 0 <= j < lines ==>
              CellAt(r, cells, image, scale, xPosition, yPosition, Side(width, cols), Side(height, lines), lines, i, j)
    ensures forall k :: 0 <= k < |cells| ==> cells[k] == s.nextId + k
    ensures r.objects == s.objects + cells
    ensures r.registry == s.registry && r.surface == s.surface
    ensures forall id :: id in s.entities && id < s.nextId ==> id in r.entities && r.entities[id] == s.entities[id]
    ensures Valid(s) ==> Valid(r)
  {
    var sideX := Side(width, cols);
    var sideY := Side(height, lines);
    ghost var rows: nat := if lines > 0 then lines else 0;
    ghost var columns: nat := if cols > 0 then cols else 0;
    r, cells := s, [];
    BuiltNothing(s, image, scale, xPosition, yPosition, sideX, sideY, rows);
    var x := xPosition;
    var i := 0;
    while i < cols
      invariant 0 <= i <= columns
      invariant x == xPosition + i as real * sideX
      invariant Built(s, r, cells, image, scale, Layout(xPosition, yPosition, sideX, sideY, rows, i))
    {
      r, cells := NextColumn(s, r, cells, image, scale, xPosition, yPosition, sideX, sideY, lines, i, x);
      x := x + sideX;
      i := i + 1;
    }
    forall a, b | 0 <= a < cols && 0 <= b < lines
      ensures CellAt(r, cells, image, scale, xPosition, yPosition, sideX, sideY, lines, a, b)
    {
      BuiltGrid(s, r, cells, image, scale, xPosition, yPosition, sideX, sideY, rows, columns, a, b);
    }
  }
}

=== FILE: util.dfy ===
/** Pointer-event normalisation and the game-mode switch. */
module Util {
  import opened Options

  datatype EventType = MouseMove | MouseUp | MouseOut | Click | TouchStart | TouchMove | TouchEnd | OtherEvent

  /** One touch point. */
  datatype Touch = Touch(clientX: real, clientY: real)

  /** The coordinates of a wrapped native event; either may be undefined. */
  datatype Coords = Coords(clientX: Option<real>, clientY: Option<real>)

  /** A raw mouse or touch event as delivered by the page; `None` stands for `undefined`. */
  datatype RawEvent = RawEvent(
    kind: EventType,
    clientX: Option<real>, clientY: Option<real>,
    touches: seq<Touch>,
    originalEvent: Option<Coords>,
    buttons: Option<int>)

  /** The uniform shape every handler works on. */
  datatype NormEvent = NormEvent(kind: EventType, clientX: Option<real>, clientY: Option<real>, isPushed: bool)

  /** JavaScript truthiness of a coordinate: undefined and 0 are falsy. */
  predicate Falsy(v: Option<real>) {
    v.None? || v.value == 0.0
  }

  /**
   * Normalisation: the first touch point, when there is one, supplies the coordinates; if either
   * coordinate is then falsy and a wrapped native event exists, both come from it. The pointer
   * counts as pressed for touch moves and touch starts, or when exactly the primary button is down.
   */
  function Globalize(e: RawEvent): (r: NormEvent)
    ensures r.kind == e.kind
    ensures r.isPushed <==> e.kind == TouchMove || e.kind == TouchStart || e.buttons == Some(1)
    ensures var x1 := if |e.touches| > 0 then Some(e.touches[0].clientX) else e.clientX;
      var y1 := if |e.touches| > 0 then Some(e.touches[0].clientY) else e.clientY;
      && ((Falsy(x1) || Falsy(y1)) && e.originalEvent.Some? ==>
            r.clientX == e.originalEvent.value.clientX && r.clientY == e.originalEvent.value.clientY)
      && (!((Falsy(x1) || Falsy(y1)) && e.originalEvent.Some?) ==> r.clientX == x1 && r.clientY == y1)
    ensures |e.touches| > 0 && e.touches[0].clientX != 0.0 && e.touches[0].clientY != 0.0 ==>
              r.clientX == Some(e.touches[0].clientX) && r.clientY == Some(e.touches[0].clientY)
    ensures |e.touches| == 0 && !Falsy(e.clientX) && !Falsy(e.clientY) ==>
              r.clientX == e.clientX && r.clientY == e.clientY
  {
    var x1 := if |e.touches| > 0 then Some(e.touches[0].clientX) else e.clientX;
    var y1 := if |e.touches| > 0 then Some(e.touches[0].clientY) else e.clientY;
    var fallback := (Falsy(x1) || Falsy(y1)) && e.originalEvent.Some?;
    var x2 := if fallback then e.originalEvent.value.clientX else x1;
    var y2 := if fallback then e.originalEvent.value.clientY else y1;
    var pushed := e.kind == TouchMove || e.kind == TouchStart || e.buttons == Some(1);
    NormEvent(e.kind, x2, y2, pushed)
  }

  /**
   * A touch event whose touch point lies on either axis at 0 is recovered from the wrapped native
   * event (which, for touch events, may carry no coordinates at all): a 0 coordinate is not trusted.
   */
  lemma ZeroTouchFallsBack(e: RawEvent)
    requires |e.touches| > 0 && (e.touches[0].clientX == 0.0 || e.touches[0].clientY == 0.0) && e.originalEvent.Some?
    ensures Globalize(e).clientX == e.originalEvent.value.clientX
    ensures Globalize(e).clientY == e.originalEvent.value.clientY
  {
  }

  /**
   * Normalisation never loses a usable coordinate: a result coordinate is undefined or 0 only
   * when the source it was finally taken from (the wrapped event, else the touch point or the
   * raw event) had it undefined or 0 as well.
   */
  lemma FalsyOnlyFromSource(e: RawEvent)
    ensures var r := Globalize(e);
      var x1 := if |e.touches| > 0 then Some(e.touches[0].clientX) else e.clientX;
      var y1 := if |e.touches| > 0 then Some(e.touches[0].clientY) else e.clientY;
      && (Falsy(r.clientX) ==> (e.originalEvent.Some? && Falsy(e.originalEvent.value.clientX)) || (e.originalEvent.None? && Falsy(x1)))
      && (Falsy(r.clientY) ==> (e.originalEvent.Some? && Falsy(e.originalEvent.value.clientY)) || (e.originalEvent.None? && Falsy(y1)))
  {
  }

  /** A mouse event that already carries truthy coordinates comes out with exactly those. */
  lemma TruthyMouseKept(e: RawEvent, x: real, y: real)
    requires |e.touches| == 0 && e.clientX == Some(x) && e.clientY == Some(y) && x != 0.0 && y != 0.0
    ensures Globalize(e).clientX == Some(x) && Globalize(e).clientY == Some(y)
  {
  }

  datatype Gamemode = Explore | Train | Evaluate | Create

  /** What a game-data change makes observable: a statistics record, and the registered callback. */
  datatype Effect = AddStats(mode: int) | GamemodeCallback

  datatype UtilState = UtilState(gamemode: Gamemode, hasCallback: bool)

  /** The initial state: exploring, no callback registered. */
  function Init(): (r: UtilState)
    ensures r.gamemode == Explore && !r.hasCallback
  {
    UtilState(Explore, false)
  }

  /** Registers the callback fired on every game-data change. */
  function CallOnGamemodeChange(u: UtilState): (r: UtilState)
    ensures r.hasCallback && r.gamemode == u.gamemode
  {
    u.(hasCallback := true)
  }

  /**
   * A game-data change records statistics mode 1 when training, 2 when evaluating and nothing
   * otherwise, then fires the callback if one is registered.
   */
  function OnGameDataChanged(u: UtilState): (r: seq<Effect>)
    ensures |r| == (if u.gamemode == Train || u.gamemode == Evaluate then 1 else 0) + (if u.hasCallback then 1 else 0)
    ensures u.gamemode == Train ==> r[0] == AddStats(1)
    ensures u.gamemode == Evaluate ==> r[0] == AddStats(2)
    ensures (u.gamemode == Explore || u.gamemode == Create) ==> forall i :: 0 <= i < |r| ==> !r[i].AddStats?
    ensures (GamemodeCallback in r) <==> u.hasCallback
    ensures u.hasCallback ==> r[|r| - 1] == GamemodeCallback
  {
    var stats := if u.gamemode == Train then [AddStats(1)]
                 else if u.gamemode == Evaluate then [AddStats(2)]
                 else [];
    stats + (if u.hasCallback then [GamemodeCallback] else [])
  }

  /** The state after a game-mode button, and the effects it produced. */
  datatype Switched = Switched(state: UtilState, effects: seq<Effect>)

  /** A game-mode button: switching to another mode fires one game-data change; the current mode does nothing. */
  function SelectGamemode(u: UtilState, m: Gamemode): (r: Switched)
    ensures r.state.gamemode == m && r.state.hasCallback == u.hasCallback
    ensures m == u.gamemode ==> r.state == u && r.effects == []
    ensures m != u.gamemode ==> r.effects == OnGameDataChanged(r.state)
  {
    if u.gamemode != m then
      var u' := u.(gamemode := m);
      Switched(u', OnGameDataChanged(u'))
    else Switched(u, [])
  }

  /**
   * Statistics follow the mode switched to: entering training or evaluation records exactly one
   * statistic of that mode before the callback; entering any other mode records none.
   */
  lemma SwitchRecordsStats(u: UtilState, m: Gamemode)
    requires m != u.gamemode
    ensures var fx := SelectGamemode(u, m).effects;
      && (m == Train ==> fx == [AddStats(1)] + (if u.hasCallback then [GamemodeCallback] else []))
      && (m == Evaluate ==> fx == [AddStats(2)] + (if u.hasCallback then [GamemodeCallback] else []))
      && (m == Explore || m == Create ==> fx == (if u.hasCallback then [GamemodeCallback] else []))
  {
  }

  /** Pressing the same game-mode button twice changes nothing the second time. */
  lemma SelectTwiceIsOnce(u: UtilState, m: Gamemode)
    ensures SelectGamemode(SelectGamemode(u, m).state, m) == Switched(SelectGamemode(u, m).state, [])
  {
  }
}
